=== FILE: README.md ===
# Schedule: the transport and store core, in Dafny

Schedule is a FastAPI service that sends mail, calls HTTP endpoints and
uploads files on a schedule. This project models the small decision
procedures inside its transports, utilities and mail-schedule store, and
proves what they promise. Network and file-system effects become function
parameters:

- the SMTP library's verdict (`transport`) and the failing SMTP step (`fault`);
- the HTTP server's answer to each attempt (`server`);
- whether a local file exists, uploads or can be removed (`present`,
  `transfer`, `remove`);
- what an attachment path finds (`files`);
- the MIME header encoder (`encode`), and whether `MIMEText` can encode a
  body in a given charset (`charsetOk`);
- the application configuration's `DEFAULT_SMTP_*` values (`cfg`), with
  `None` for a configuration that does not define them;
- the clock (`now`).

Modules:

- `Wrappers`: `Option` and `Result`.
- `PyStr`: the Python `str` behaviour the code relies on, made explicit.
  This covers `isspace`, `strip`, `split` on a non-empty separator, `join`,
  `upper` and truthiness of optional values.
- `Helpers`: `split_by_delimiter` and `truncate_string` (`utils/helpers.py`).
- `Validators`: `validate_port` and `validate_http_method` (`utils/validators.py`).
- `MailClient`: `core/mail_client.py`. It covers recipient parsing, message
  composition, the TLS-mode choice and the exception-to-`False` mapping.
- `EmailSender`: `send_schedule_mail` (`services/email_sender.py`). It covers
  settings fallback, the host check, the raw recipient split and the SMTP
  session plan.
- `HttpClient`: the retry loop, the verb wrappers and `validate_response`
  (`core/http_client.py`).
- `FileTransfer`: the client factory, the missing-local-file guard and the
  batch upload (`core/ftp_client.py`).
- `MailStore`: the CRUD operations of `crud/mail.py`. The table is a
  sequence of rows in id order plus the next autoincrement id. Each row maps
  every column of `tblschedulemail` to a value.

Where the code and its documentation disagree, the model follows the code:

- An HTTP response ends the retry loop whatever its status, so a 500 is
  returned, not retried.
- The FTP factory's docstring lists FTPS, but the factory refuses it.
- The mail client's constructor documents port 25 as unencrypted, but with
  `use_ssl=False` the client still asks the library for STARTTLS, on port 25
  as on any other port.
- Through the factory an SFTP client's user name defaults to `"anonymous"`.
  The SFTP class's own default is `"root"`.

## Model

| member | source | states |
|---|---|---|
| PyStr.Strip | API/app/utils/helpers.py:71 | `str.strip()`: the result is a slice of the input with no whitespace at either end, and everything cut off before and after it is whitespace |
| PyStr.LeadingSpaceMaximal | API/app/utils/helpers.py:71 | the leading cut removes whitespace only and stops at the first other character |
| PyStr.StripBlank | API/app/utils/helpers.py:71 | the stripped text is empty exactly when the input is all whitespace |
| PyStr.Split | API/app/utils/helpers.py:71 | `str.split(sep)`: at least one piece, and no piece contains the separator |
| PyStr.JoinSplit | API/app/utils/helpers.py:71 | joining the pieces of a split with the separator gives back the original string |
| PyStr.SplitJoin | API/app/utils/helpers.py:71 | for a one-character separator, splitting the join of separator-free pieces gives back those pieces |
| PyStr.SplitCount | API/app/services/email_sender.py:52 | `s.split(';')` has one more piece than `s` has semicolons |
| PyStr.UpperIdempotent | API/app/utils/validators.py:155 | `upper()` applied twice equals `upper()` applied once |
| Helpers.SplitByDelimiter | API/app/utils/helpers.py:69-71 | `None` or `""` gives the empty list; every element is non-empty, trimmed and free of the delimiter |
| Helpers.KeepNonBlankMembers | API/app/utils/helpers.py:71 | the kept elements are exactly the non-blank pieces, trimmed |
| Helpers.SplitByDelimiterIdempotent | API/app/utils/helpers.py:71 | with a one-character delimiter, splitting the delimiter-join of a result returns that same result |
| Helpers.SplitByDelimiterExample | API/app/utils/helpers.py:65-67 | `"a; b ; c"` split on `";"` is `["a", "b", "c"]` |
| Helpers.TruncateString | API/app/utils/helpers.py:149-151 | text that fits is returned unchanged; longer text ends with the suffix; when the limit leaves room for the suffix, the result has exactly the limit's length and keeps the input's prefix |
| Helpers.TruncateStringExample | API/app/utils/helpers.py:146-147 | `("This is a very long string", 10)` gives `"This is..."` |
| Helpers.TruncateShortLimitOverflows | API/app/utils/helpers.py:151 | as written, a limit shorter than the suffix yields a result longer than the limit |
| Helpers.TruncateShortLimitExample | API/app/utils/helpers.py:151 | as written, `("abcdef", 2)` gives `"abcde..."` |
| Helpers.TruncateStringBounded | API/app/utils/helpers.py:149-151 | corrected truncation: never longer than the limit, and equal to the original whenever the limit leaves room for the suffix |
| Validators.ValidatePortTested | API/tests/test_core/test_validators.py:59-69 | 80, 8000 and 65535 are accepted; 0, 65536 and -1 are rejected |
| Validators.ValidateHttpMethod | API/app/utils/validators.py:154-155 | an accepted method upper-cases to at least three characters |
| Validators.ValidateHttpMethodCaseInsensitive | API/app/utils/validators.py:155 | validating `upper(m)` gives the same answer as validating `m` |
| Validators.WhitelistAccepted | API/app/utils/validators.py:154-155 | each of the seven listed names validates as written |
| Validators.ValidateHttpMethodAscii | API/app/utils/validators.py:154-155 | for ASCII input: valid iff the input equals one of the seven names up to letter case |
| Validators.ValidateUpperAscii | API/app/utils/validators.py:154-155 | an ASCII name without lower-case letters is valid iff it is listed |
| Validators.UpperOfAscii | API/app/utils/validators.py:155 | on ASCII text `upper()` upper-cases letter by letter and keeps the length |
| Validators.ValidateHttpMethodTested | API/tests/test_core/test_validators.py:48-56 | `GET`, `POST` and `put` are accepted; `INVALID` is rejected |
| Validators.DotlessIAccepted | API/app/utils/validators.py:155 | a method name spelled with a dotless i (U+0131) is accepted, because `upper()` maps it to `I` |
| MailClient.ParseRecipients | API/app/core/mail_client.py:44-54 | the parse equals `split_by_delimiter(s, ";")`; every address is non-empty, trimmed and free of `;` |
| MailClient.ParseOptional | API/app/core/mail_client.py:156-157 | the Cc/Bcc list is absent exactly when the string is `None` or empty |
| MailClient.AllRecipients | API/app/core/mail_client.py:171-176 | the To list, then the Cc list, then the Bcc list; the length is the sum of the three |
| MailClient.SenderAddressRoundTrip | API/app/core/mail_client.py:160 | the address reads back from the From header, as the text between the last `<` and the closing `>` or as the whole header, whatever the display name, when the address has no `<` |
| MailClient.BodySubtypeAscii | API/app/core/mail_client.py:92 | for ASCII input the text part is html exactly when the body type spells `HTML` in any mix of letter cases |
| MailClient.ListHeaderReadsBack | API/app/core/mail_client.py:86-89 | a Cc/Bcc header, read back on `","` with trimming, gives exactly the parsed addresses, and no header means no addresses, when the string has no comma |
| MailClient.ToHeaderReadsBack | API/app/core/mail_client.py:81-83 | the To header, read back on `","` with trimming, gives exactly the parsed recipients when they have no comma |
| MailClient.Compose | API/app/core/mail_client.py:155-169 | the message built by `send_mail`: sender address rule, To from the parsed recipients, Cc/Bcc only when the string parses to some address; the request's subject and body; `html` exactly when the body type upper-cases to `HTML`; charset `utf-8`; no attachments |
| MailClient.Envelope | API/app/core/mail_client.py:171-176 | the envelope has as many addresses as the three parsed lists together |
| MailClient.HeaderRoundTrip | API/app/core/mail_client.py:83 | a `", "`-joined header of clean, comma-free addresses splits back on `","` into the same list |
| MailClient.EnvelopeMatchesHeaders | API/app/core/mail_client.py:83-89 | with comma-free addresses, reading the To, Cc and Bcc headers back gives the envelope list |
| MailClient.ParsedChars | API/app/core/mail_client.py:54 | every character of a parsed address occurs in the parsed string |
| MailClient.ParsedHasVisibleChar | API/app/core/mail_client.py:54 | a string with some address holds a character that is neither whitespace nor `;` |
| MailClient.ParseBlank | API/app/core/mail_client.py:54 | a string of only whitespace and semicolons parses to no addresses |
| MailClient.SslOffUsesStartTls | API/app/core/mail_client.py:181-202 | with SSL off, or on any port other than 465, the library is asked for STARTTLS; implicit TLS needs SSL on port 465 |
| MailClient.DocumentedPortsValid | API/app/core/mail_client.py:20-31 | the default port and the documented ports 25, 465 and 587 pass `validate_port` |
| MailClient.SendMail | API/app/core/mail_client.py:127-209 | one submission of the composed message with the client's host, port, credentials and timeout, implicit TLS iff SSL is on and the port is 465; the result is `True` exactly when that submission succeeds |
| MailClient.AttachAll | API/app/core/mail_client.py:97-125 | missing files are skipped and readable ones attached; an unreadable file aborts the whole send; the attachments are exactly `Readables(paths)`, the readable paths in order and once per occurrence |
| MailClient.SendMailWithAttachments | API/app/core/mail_client.py:211-298 | attachment paths are split by the trim-and-drop rule; a failed attachment gives `False` without a submission; otherwise the submission is exactly `send_mail`'s, and its attachments are the readable paths in the order given, a path listed twice being attached twice |
| MailClient.NoAttachmentsIsSendMail | API/app/core/mail_client.py:258 | with blank attachment paths the two send operations coincide |
| EmailSender.LoadSettings | API/app/services/email_sender.py:23-27 | without `DEFAULT_SMTP_*` settings, reading them raises `AttributeError` naming the first one read exactly when some fall-back is needed; any settings read agree with the resolution against every configured default |
| EmailSender.OwnSettingsIgnoreDefaults | API/app/services/email_sender.py:23-27 | a schedule with all five SMTP columns set is sent with its own settings, whatever the defaults are, and reads no default |
| EmailSender.FallbackTruthiness | API/app/services/email_sender.py:23-27 | a resolved host, port or credential pair is usable iff the schedule's or the default's is; for SSL an explicit schedule value decides |
| EmailSender.FallbackAsymmetry | API/app/services/email_sender.py:23-27 | an empty host or a zero port falls back to the default, an explicit `False` for SSL does not |
| EmailSender.HeadersMatchEnvelope | API/app/services/email_sender.py:40-56 | split on `;`, the To, Cc and Bcc headers of the built message give exactly the raw envelope, in order |
| EmailSender.RawField | API/app/services/email_sender.py:52-56 | a truthy field contributes its raw `;`-pieces, one more than its semicolons; a falsy one contributes nothing |
| EmailSender.RawEnvelope | API/app/services/email_sender.py:52-56 | the recipients' pieces come first and join back to the recipients string; the length counts the pieces of all three fields |
| EmailSender.RawEnvelopeTrimmed | API/app/services/email_sender.py:52-56 | trimming the raw envelope and dropping blanks gives the mail client's envelope |
| EmailSender.RawEnvelopeKeepsBlanks | API/app/services/email_sender.py:52 | `"a;;b"` gives raw pieces `["a", "", "b"]`, but the mail client parses it to `["a", "b"]` |
| EmailSender.Session | API/app/services/email_sender.py:59-65 | connect first and send last; STARTTLS iff SSL, right after connecting; login with the resolved user and password iff both are non-empty, right before sending |
| EmailSender.Run | API/app/services/email_sender.py:59-65 | steps run in order up to and including the first one that raises |
| EmailSender.SendScheduleMail | API/app/services/email_sender.py:16-77 | a needed default that is not configured raises before anything else; no host, a `NULL` body type or a body that does not encode fails with no step attempted; otherwise the attempted steps are a prefix of the planned session ending at the first raising step, the result is `True` iff no planned step raises, and an authentication error and any other error give their two failure results |
| EmailSender.FaultFreeSends | API/app/services/email_sender.py:59-68 | with defaults configured, a host, a body type, a body that encodes and no failing step, the send succeeds after every planned step |
| EmailSender.FaultySendFails | API/app/services/email_sender.py:59-77 | when a planned step raises, exactly the steps up to the first raising one are attempted, the result is `False`, and that step's exception class decides the failure result |
| EmailSender.ShippedHostCheckUnreachable | API/app/services/email_sender.py:23-31 | without `DEFAULT_SMTP_*` settings the missing-host result can never be returned |
| EmailSender.ShippedConfigRaises | API/app/services/email_sender.py:25 | without `DEFAULT_SMTP_*` settings, a schedule with a host but no SMTP user raises `AttributeError` for `DEFAULT_SMTP_USER` |
| EmailSender.ConfiguredSendNeverRaises | API/app/services/email_sender.py:23-35 | with the defaults defined no send raises, and every send that does not raise without them gives the same result |
| EmailSender.ConfiguredNoUserNoLogin | API/app/services/email_sender.py:62-63 | with the defaults defined and no user in the schedule or the defaults, the session has no login step |
| HttpClient.ExecuteWithRetry | API/app/core/http_client.py:34-88 | at most `retry_count + 1` attempts; every attempt before the last raised; a response is returned iff some allowed attempt yields one, and it comes from the last attempt made; otherwise the last exception escapes; one sleep between consecutive attempts |
| HttpClient.AllAttemptsFail | API/app/core/http_client.py:82-88 | when every attempt raises: `retry_count + 1` attempts and `retry_count` sleeps, then the last exception |
| HttpClient.ServerErrorNotRetried | API/app/core/http_client.py:64-67 | a response on the first attempt, whatever its status, is returned after one attempt and no sleep |
| HttpClient.FirstResponseWins | API/app/core/http_client.py:56-84 | the first attempt that gets a response ends the loop, after one sleep per earlier attempt |
| HttpClient.VerbName | API/app/core/http_client.py:107-214 | each wrapper's method name is on the validator's whitelist |
| HttpClient.VerbNamesDistinct | API/app/core/http_client.py:107-214 | the five wrappers pass five different method names |
| HttpClient.WrapperRequest | API/app/core/http_client.py:90-214 | `get` forwards query parameters; `post`, `put` and `patch` forward data and json; `delete` forwards headers only |
| HttpClient.Call | API/app/core/http_client.py:90-214 | every wrapper runs the one retry loop on its own request |
| HttpClient.CallValidates | API/app/core/http_client.py:216-237 | validating a wrapper's response checks the status of the first attempt that got one, so a server error that ends the loop fails validation |
| HttpClient.GetOkValidates | API/tests/test_core/test_http_client.py:14-15 | a GET answered with 200 validates |
| FileTransfer.CreateClient | API/app/core/ftp_client.py:298-332 | case-insensitive protocol; `FTP` uses the given port or 21, `SFTP` the given port or 22, when the port is `None` or 0; other names are refused with the upper-cased name |
| FileTransfer.CreateClientCaseInsensitive | API/app/core/ftp_client.py:323 | upper-casing the protocol first changes nothing |
| FileTransfer.FtpsRefused | API/app/core/ftp_client.py:312-332 | `FTPS`, though documented, is refused |
| FileTransfer.SftpFactoryDefaults | API/app/core/ftp_client.py:299-330 | an SFTP client from the factory has port 22 and user `anonymous` |
| FileTransfer.FactoryPortsValid | API/app/core/ftp_client.py:298-332 | a factory client's port passes `validate_port` whenever the caller gave no port, port 0 or a valid port |
| FileTransfer.Basename | API/app/core/ftp_client.py:362 | `os.path.basename`: the suffix of the path after its last `/` |
| FileTransfer.RemotePathBasename | API/app/core/ftp_client.py:362-363 | the remote file keeps the local file's base name |
| FileTransfer.UploadedExactly | API/app/core/ftp_client.py:111-125 | the uploaded files are exactly the matched files that exist locally and whose transfer returns; a missing file is never uploaded |
| FileTransfer.Uploaded | API/app/core/ftp_client.py:361-378 | the reference list: matched files that upload successfully, in order |
| FileTransfer.UploadedAppend | API/app/core/ftp_client.py:361-378 | the successes of two batches are the successes of each, concatenated |
| FileTransfer.UploadFilesWithPattern | API/app/core/ftp_client.py:335-385 | successes plus failures equal the matched files; the success count equals the number of successful uploads; each target is the remote path; deletion is attempted exactly for the uploaded files when requested; a failed deletion changes no count |
| MailStore.Get | API/app/crud/mail.py:9-11 | the row with that id, or nothing when no row has it |
| MailStore.GetFindsRow | API/app/crud/mail.py:9-11 | in a valid store every row is found by its own id |
| MailStore.Page | API/app/crud/mail.py:15 | `OFFSET skip LIMIT limit` over a scan order: skips `skip` rows and returns at most `limit`, in that order; a negative offset or limit is an error |
| MailStore.GetSchedules | API/app/crud/mail.py:13-15 | the same page taken over the rows in id order |
| MailStore.PagesConcatenate | API/app/crud/mail.py:15 | consecutive pages cover the table without gap or overlap, provided both queries scan the rows in the same order, which the id order of `GetSchedules` is |
| MailStore.PagesMayOverlap | API/app/crud/mail.py:15 | if the two queries scan two rows in different orders, one row is on both pages and the other on neither |
| MailStore.DefaultListingIsAll | API/app/crud/mail.py:13-15 | the default listing of a table of at most 100 rows is the whole table |
| MailStore.NewRow | API/app/crud/mail.py:17-19 | a non-null request field is stored as given; an explicit null takes the column's default (587, true, 30, true, …, or NULL when the column has none); an omitted field takes the schema default; the table's own columns take zero counters, `Pending` and `now` |
| MailStore.SchemaAgreesWithTable | API/app/models/mail.py:21-46 | for every field the request may carry, the schema's default equals the column's default, so omitting a field and sending it as null store the same value |
| MailStore.ExplicitNullIsOmitted | API/app/crud/mail.py:19 | creating with a field set to null builds the same row as creating without that field |
| MailStore.Create | API/app/crud/mail.py:17-23 | appends one row under the next id; non-null fields are stored as given and null ones take the column default; existing rows are unchanged; the store stays valid |
| MailStore.CreateThenGet | API/app/crud/mail.py:17-23 | after a create the new row is found by its id and every other id reads as before |
| MailStore.Patch | API/app/crud/mail.py:31-35 | the patched fields take the given values, including `NULL`; `modifieddate` becomes `now`; every other field is kept |
| MailStore.PatchIdempotent | API/app/crud/mail.py:31-35 | applying the same patch twice at the same time equals applying it once |
| MailStore.NullViolation | API/app/models/mail.py:12-20 | finds a NOT NULL column that the patch sets to `NULL` |
| MailStore.FitError | API/app/models/mail.py:12-46 | `None` exactly when every patched value fits its column (a string within `String(n)`, an integer within 32 bits); otherwise a value-too-long or integer-out-of-range error naming a column whose value does not fit |
| MailStore.FirstMisfit | API/app/models/mail.py:12-46 | the reported column is the first misfit in the given column order |
| MailStore.SchemaBoundsMatchTable | API/app/schemas/mail.py:48-71 | the update schema's `max_length` equals the column length for every field except `bodytype` and `priority`, which are unbounded in the schema and `String(10)` in the table |
| MailStore.Update | API/app/crud/mail.py:25-39 | a missing id gives `None` and no change; a value its column cannot hold fails the commit and changes nothing, and so does, after that, a NOT NULL column set to `NULL`; otherwise the row becomes the patched row; other ids read as before |
| MailStore.OverflowingPatchRefused | API/app/crud/mail.py:37 | an 11-character `bodytype`, or an `smtpport` of 2^31, fails the commit with the table unchanged |
| MailStore.ReplaceRow | API/app/crud/mail.py:34-37 | overwriting one row keeps the store valid and changes no other id |
| MailStore.UpdateScheduleStatus | API/app/crud/mail.py:51-62 | a missing id gives `None` and no change; otherwise only `isenabled` and `modifieddate` change; other ids read as before |
| MailStore.StatusIsPartialUpdate | API/app/crud/mail.py:51-62 | a status update equals the partial update that sets only `isenabled` |
| MailStore.Delete | API/app/crud/mail.py:41-48 | returns the row that had the id and removes exactly it; a missing id gives `None` and no change; other ids read as before |
| MailStore.RemoveRow | API/app/crud/mail.py:46-47 | removing one row keeps the store valid, and no row with that id remains |
| MailStore.CreateThenDelete | API/app/crud/mail.py:17-48 | deleting the row just created restores the previous rows |

## Left out

- The due-task claim, post-execution recording, engine-level retry and next-run (cron) computation. `routers/execute.py` calls them, but their definitions are not part of this model.
- Background orchestration in `routers/execute.py`, the database session layer (`core/database.py`) and transaction rollback. These are framework plumbing and concurrency.
- `core/crypto.py`, and the validators that wrap libraries: cron, e-mail, URL, JSON and file-path checks.
- The other helpers: `format_file_size` (floating point), the date parsing and formatting helpers, and the file helpers.
- Real I/O: SMTP, HTTP, FTP and SFTP connections, `glob`, `os.remove`, MIME and base64 encoding. Each is a parameter standing for its outcome. Connect, disconnect, download, listing and directory operations of the file clients are not modelled.
- Sleep durations: the HTTP loop counts sleeps and does not time them.
- Logging. This includes the `all_recipients` list that `send_mail` builds. The SMTP library derives the envelope from the headers, so that list is only counted in a log line; the model still builds it (`MailClient.Envelope`).
- The configuration's `DEFAULT_SMTP_*` values are the parameter `cfg`. `None` stands for the shipped configuration, which does not define them (see Findings).
- The `with` block's `quit` after sending, and exceptions raised by `quit`.
- `PyStr.Upper`: exact only where the result is compared with ASCII text. It upper-cases ASCII letters and the few non-ASCII characters whose upper case is pure ASCII (ß, ı, ſ and the ligatures U+FB00 to U+FB06), and leaves every other character alone.
- `PyStr.Split`: `str.split` with no separator (split on runs of whitespace) is not used by the code and is not modelled. An empty separator, which makes Python raise `ValueError`, is `Helpers.SplitByDelimiter`'s `Failure`.
- MailStore.GetSchedules: the query has no `ORDER BY`, so the database may return rows in any order. The model returns them in id order, and `PagesConcatenate` holds for it only because both pages then share that order (see Findings).
- MailStore.Update: a value of the wrong type for its column (a string for `smtpport`, say) is not modelled; the request schema types every field. Which error PostgreSQL names when several patched values do not fit is taken to be the first in column order.
- MailStore.Create: the column types and the validation of the request schema are not modelled, and the insert does not check `FitError`, so a `bodytype` longer than 10 characters is stored where PostgreSQL would fail the commit. Any value may go in any column, except that the five required fields must be strings. The schema rejects null for `bodytype`, `priority` and `encoding`; the model accepts it and stores the column default.
- MailStore.Update: a failed commit leaves the session to be rolled back by the caller. The model only states that the table is unchanged.
- Helpers.SplitByDelimiterIdempotent: stated for one-character delimiters only. With a longer delimiter such as `"aa"`, the join of the pieces can create new delimiter occurrences.
- EmailSender.SendScheduleMail: the text of the result message is reduced to an `Outcome` tag, and an escaping `AttributeError` to the name of the missing setting.
- EmailSender.BuildMessage: which charsets and bodies `MIMEText` accepts is the parameter `charsetOk`; the encodings themselves (RFC 2047 headers, base64 or quoted-printable bodies) are not modelled.
- FileTransfer.Basename: models POSIX `os.path.basename`, which splits on `/` only. On Windows `ntpath` also splits on `\`.

## Findings

| source | as written | input that shows it | evidently intended | confidence | as-written member | corrected member |
|---|---|---|---|---|---|---|
| API/app/utils/helpers.py:151 | `text[:max_length - len(suffix)] + suffix` with a limit shorter than the suffix slices with a negative bound, which Python counts from the end | `truncate_string("abcdef", 2)` gives `"abcde..."`: 8 characters for a limit of 2 | the result is never longer than `max_length` | not executed | Helpers.TruncateShortLimitExample | Helpers.TruncateStringBounded |
| API/app/services/email_sender.py:23-27 | each setting falls back to `settings.DEFAULT_SMTP_*`, but the `Settings` class of `config.py` declares no such field; the reads come before the `try`, and the caller does not catch | a schedule with a host and port but no SMTP user raises `AttributeError` instead of sending without login; the missing-host result is unreachable | a schedule without its own SMTP settings falls back to configured defaults and never raises | not executed | EmailSender.ShippedConfigRaises | EmailSender.ConfiguredSendNeverRaises |
| API/app/crud/mail.py:15 | `offset(skip).limit(limit)` with no `order_by`, so each page's query may scan the table in its own order | rows `x`, `y`: the first query scans `x, y` and the second `y, x`, so pages of size 1 give `x` twice and `y` never | consecutive pages partition the table, as with `ORDER BY id` | not executed | MailStore.PagesMayOverlap | MailStore.PagesConcatenate |

=== FILE: email_sender.dfy ===
/** The schedule mail sender (`services/email_sender.py`): SMTP settings taken
    from the schedule with a fall-back to configured defaults, the missing-host
    failure, the raw envelope list, the STARTTLS/login plan of the SMTP
    session, and the `(ok, message)` result, which every failure inside the
    `try` becomes.

    The SMTP server is a parameter: `fault` says which session step, if any,
    raises and with which exception class. The configuration's
    `DEFAULT_SMTP_*` values are the parameter `cfg`, `None` when the
    configuration does not define them. RFC 2047 header encoding is the
    parameter `encode`, and `charsetOk` says whether `MIMEText` accepts a body
    in a charset. */
module EmailSender {
  import opened Wrappers
  import opened PyStr
  import opened Helpers
  import MailClient

  /** The `DEFAULT_SMTP_*` configuration values. */
  datatype SmtpDefaults = SmtpDefaults(
    host: Option<string>,
    port: Option<int>,
    user: Option<string>,
    pass: Option<string>,
    useSsl: Option<bool>)

  /** The columns of a mail schedule that sending reads. */
  datatype MailTask = MailTask(
    sender: string,
    senderName: Option<string>,
    recipients: string,
    cc: Option<string>,
    bcc: Option<string>,
    subject: string,
    body: string,
    bodyType: Option<string>,
    encoding: Option<string>,
    smtpHost: Option<string>,
    smtpPort: Option<int>,
    smtpUser: Option<string>,
    smtpPass: Option<string>,
    smtpSsl: Option<bool>,
    smtpTimeout: Option<int>)

  /** The SMTP settings the send uses. */
  datatype Settings = Settings(
    host: Option<string>,
    port: Option<int>,
    username: Option<string>,
    password: Option<string>,
    useSsl: Option<bool>)

  // ---------------------------------------------------------------------------
  // Settings

  /** `x or d` for optional strings: `None` and `""` fall back. */
  function StrOr(x: Option<string>, d: Option<string>): (r: Option<string>)
    ensures StrTruthy(x) ==> r == x
    ensures !StrTruthy(x) ==> r == d
  {
    if StrTruthy(x) then x else d
  }

  /** `x or d` for optional integers: `None` and `0` fall back. */
  function IntOr(x: Option<int>, d: Option<int>): (r: Option<int>)
    ensures IntTruthy(x) ==> r == x
    ensures !IntTruthy(x) ==> r == d
  {
    if IntTruthy(x) then x else d
  }

  /** Host, port, user and password use the schedule's value when it is truthy;
      SSL uses the schedule's value whenever it is not `None`, so an explicit
      `False` is kept. This is the resolution against a configuration that
      defines every `DEFAULT_SMTP_*` value. */
  function ResolveSettings(t: MailTask, d: SmtpDefaults): (s: Settings)
    ensures StrTruthy(t.smtpHost) ==> s.host == t.smtpHost
    ensures !StrTruthy(t.smtpHost) ==> s.host == d.host
    ensures IntTruthy(t.smtpPort) ==> s.port == t.smtpPort
    ensures !IntTruthy(t.smtpPort) ==> s.port == d.port
    ensures StrTruthy(t.smtpUser) ==> s.username == t.smtpUser
    ensures !StrTruthy(t.smtpUser) ==> s.username == d.user
    ensures StrTruthy(t.smtpPass) ==> s.password == t.smtpPass
    ensures !StrTruthy(t.smtpPass) ==> s.password == d.pass
    ensures t.smtpSsl.Some? ==> s.useSsl == t.smtpSsl
    ensures t.smtpSsl.None? ==> s.useSsl == d.useSsl
  {
    Settings(StrOr(t.smtpHost, d.host), IntOr(t.smtpPort, d.port), StrOr(t.smtpUser, d.user),
             StrOr(t.smtpPass, d.pass), if t.smtpSsl.Some? then t.smtpSsl else d.useSsl)
  }

  /** Whether some setting falls back to a `DEFAULT_SMTP_*` value, that is,
      whether the right-hand side of one of the five fall-backs is evaluated. */
  predicate NeedsDefaults(t: MailTask) {
    !StrTruthy(t.smtpHost) || !IntTruthy(t.smtpPort) || !StrTruthy(t.smtpUser)
    || !StrTruthy(t.smtpPass) || t.smtpSsl.None?
  }

  /** The first `DEFAULT_SMTP_*` attribute the fall-backs read, in source order. */
  function FirstDefaultRead(t: MailTask): string
  {
    if !StrTruthy(t.smtpHost) then "DEFAULT_SMTP_HOST"
    else if !IntTruthy(t.smtpPort) then "DEFAULT_SMTP_PORT"
    else if !StrTruthy(t.smtpUser) then "DEFAULT_SMTP_USER"
    else if !StrTruthy(t.smtpPass) then "DEFAULT_SMTP_PASS"
    else "DEFAULT_SMTP_USE_SSL"
  }

  /** The settings as the sender reads them. `cfg` is the application
      configuration's `DEFAULT_SMTP_*` values, or `None` when it does not
      define them, as the shipped configuration does not: then the first
      fall-back that is evaluated raises `AttributeError` naming the
      attribute. */
  function LoadSettings(t: MailTask, cfg: Option<SmtpDefaults>): (r: Result<Settings, string>)
    ensures r.Failure? <==> cfg.None? && NeedsDefaults(t)
    ensures r.Failure? ==> r.error == FirstDefaultRead(t)
    ensures r.Success? ==> forall d :: cfg.None? || cfg == Some(d) ==> r.value == ResolveSettings(t, d)
  {
    match cfg
    case Some(d) => Success(ResolveSettings(t, d))
    case None =>
      if NeedsDefaults(t) then Failure(FirstDefaultRead(t))
      else Success(Settings(t.smtpHost, t.smtpPort, t.smtpUser, t.smtpPass, t.smtpSsl))
  }

  /** A schedule that sets all five SMTP columns is sent with its own settings,
      whatever the defaults are, and reads no default at all. */
  lemma OwnSettingsIgnoreDefaults(t: MailTask, d1: SmtpDefaults, d2: SmtpDefaults)
    requires !NeedsDefaults(t)
    ensures ResolveSettings(t, d1) == ResolveSettings(t, d2)
    ensures LoadSettings(t, None) == LoadSettings(t, Some(d1))
  {
  }

  /** After the fall-back, a setting is truthy exactly when the schedule's or
      the default's value is; for SSL, an explicit schedule value decides. */
  lemma FallbackTruthiness(t: MailTask, d: SmtpDefaults)
    ensures StrTruthy(ResolveSettings(t, d).host) <==> StrTruthy(t.smtpHost) || StrTruthy(d.host)
    ensures IntTruthy(ResolveSettings(t, d).port) <==> IntTruthy(t.smtpPort) || IntTruthy(d.port)
    ensures LogsIn(ResolveSettings(t, d)) <==>
              (StrTruthy(t.smtpUser) || StrTruthy(d.user)) && (StrTruthy(t.smtpPass) || StrTruthy(d.pass))
    ensures BoolTruthy(ResolveSettings(t, d).useSsl) <==>
              if t.smtpSsl.Some? then t.smtpSsl.value else BoolTruthy(d.useSsl)
  {
  }

  /** The two fall-back rules differ: an empty host or a zero port is replaced
      by the default, an explicit `False` for SSL is not. */
  lemma FallbackAsymmetry(t: MailTask, d: SmtpDefaults)
    requires t.smtpHost == Some("") && t.smtpPort == Some(0) && t.smtpSsl == Some(false)
    requires d.useSsl == Some(true)
    ensures var s := ResolveSettings(t, d);
            s.host == d.host && s.port == d.port && !BoolTruthy(s.useSsl)
  {
  }

  // ---------------------------------------------------------------------------
  // The message

  /** `schedule.sendername or schedule.sender`. */
  function DisplayName(t: MailTask): (n: string)
    ensures StrTruthy(t.senderName) ==> n == t.senderName.value
    ensures !StrTruthy(t.senderName) ==> n == t.sender
  {
    if StrTruthy(t.senderName) then t.senderName.value else t.sender
  }

  /** The composed message, or `None` when composing raises: `bodytype` is
      `NULL`, so calling `upper()` on it raises, or the text part cannot be
      encoded in the schedule's charset. `charsetOk(body, encoding)` says
      whether `MIMEText` accepts the body in that charset (an unknown charset
      name raises `LookupError`, an unencodable character
      `UnicodeEncodeError`). The To, Cc and Bcc headers carry the raw column
      text. */
  function BuildMessage(t: MailTask, encode: string -> string,
                        charsetOk: (string, Option<string>) -> bool): (m: Option<MailClient.Message>)
    ensures m.None? <==> t.bodyType.None? || !charsetOk(t.body, t.encoding)
    ensures m.Some? ==> m.value.fromHeader == "\"" + encode(DisplayName(t)) + "\" <" + t.sender + ">"
    ensures m.Some? ==> m.value.toHeader == t.recipients
    ensures m.Some? ==> (m.value.ccHeader.Some? <==> StrTruthy(t.cc))
    ensures m.Some? ==> (m.value.bccHeader.Some? <==> StrTruthy(t.bcc))
    ensures m.Some? ==> (m.value.subtype == MailClient.Html <==> Upper(t.bodyType.value) == "HTML")
    ensures m.Some? ==> m.value.charset == t.encoding && m.value.body == t.body
  {
    if t.bodyType.None? || !charsetOk(t.body, t.encoding) then None
    else
      Some(MailClient.Message(
        "\"" + encode(DisplayName(t)) + "\" <" + t.sender + ">",
        t.recipients,
        encode(t.subject),
        if StrTruthy(t.cc) then t.cc else None,
        if StrTruthy(t.bcc) then t.bcc else None,
        MailClient.BodySubtype(t.bodyType.value),
        t.encoding,
        t.body,
        []))
  }

  // ---------------------------------------------------------------------------
  // The envelope

  /** `s.split(';')` when the field is truthy, nothing otherwise. */
  function RawField(s: Option<string>): (r: seq<string>)
    ensures StrTruthy(s) ==> |r| == CountChar(s.value, ';') + 1 && Join(r, ";") == s.value
    ensures !StrTruthy(s) ==> r == []
  {
    if StrTruthy(s) then
      SplitCount(s.value, ';');
      JoinSplit(s.value, ";");
      Split(s.value, ";")
    else []
  }

  /** `all_recipients`: the raw `;`-pieces of recipients, then of cc and bcc
      when those are truthy. Nothing is trimmed and empty pieces survive. */
  function RawEnvelope(t: MailTask): (r: seq<string>)
    ensures |r| == CountChar(t.recipients, ';') + 1 + |RawField(t.cc)| + |RawField(t.bcc)|
    ensures Join(r[..CountChar(t.recipients, ';') + 1], ";") == t.recipients
  {
    var to := Split(t.recipients, ";");
    SplitCount(t.recipients, ';');
    JoinSplit(t.recipients, ";");
    assert (to + RawField(t.cc) + RawField(t.bcc))[..|to|] == to;
    to + RawField(t.cc) + RawField(t.bcc)
  }

  /** Every address the message's To, Cc and Bcc headers name is on the
      envelope and vice versa: split on `;`, the three headers of the built
      message give exactly the raw envelope, in order. */
  lemma HeadersMatchEnvelope(t: MailTask, encode: string -> string,
                             charsetOk: (string, Option<string>) -> bool)
    requires BuildMessage(t, encode, charsetOk).Some?
    ensures var m := BuildMessage(t, encode, charsetOk).value;
            Split(m.toHeader, ";") + RawField(m.ccHeader) + RawField(m.bccHeader) == RawEnvelope(t)
  {
    var m := BuildMessage(t, encode, charsetOk).value;
    assert RawField(m.ccHeader) == RawField(t.cc);
    assert RawField(m.bccHeader) == RawField(t.bcc);
  }

  /** The same schedule as a request to the mail client. */
  function AsRequest(t: MailTask): MailClient.MailRequest
  {
    MailClient.MailRequest(t.sender, t.recipients, t.subject, t.body,
                           t.bodyType.GetOr("HTML"), t.cc, t.bcc, t.senderName)
  }

  /** Parsing is the raw split with trimming and blank pieces dropped. */
  lemma ParseIsTrimmedSplit(s: string)
    ensures KeepNonBlank(Split(s, ";")) == MailClient.ParseRecipients(s)
  {
    if s == "" {
      assert Split(s, ";") == [""];
      assert Strip("") == "";
    }
  }

  lemma RawFieldTrimmed(s: Option<string>)
    ensures KeepNonBlank(RawField(s)) == MailClient.OrEmpty(MailClient.ParseOptional(s))
  {
    if StrTruthy(s) {
      ParseIsTrimmedSplit(s.value);
    }
  }

  /** The raw envelope, trimmed and with blank pieces dropped, is the envelope
      the mail client builds for the same recipients. */
  lemma RawEnvelopeTrimmed(t: MailTask)
    ensures KeepNonBlank(RawEnvelope(t)) == MailClient.Envelope(AsRequest(t))
  {
    var to := Split(t.recipients, ";");
    var cc := RawField(t.cc);
    var bcc := RawField(t.bcc);
    assert RawEnvelope(t) == to + cc + bcc;
    KeepNonBlankAppend(to + cc, bcc);
    KeepNonBlankAppend(to, cc);
    ParseIsTrimmedSplit(t.recipients);
    RawFieldTrimmed(t.cc);
    RawFieldTrimmed(t.bcc);
  }

  lemma RawSplitExample()
    ensures Split("a;;b", ";") == ["a", "", "b"]
  {
    var ps := ["a", "", "b"];
    assert Join(ps, ";") == "a;;b" by {
      assert Join(ps[2..], ";") == "b";
      assert Join(ps[1..], ";") == ";b";
    }
    forall i | 0 <= i < |ps| ensures ';' !in ps[i] {}
    SplitJoin(ps, ';');
  }

  lemma KeepExample()
    ensures KeepNonBlank(["a", "", "b"]) == ["a", "b"]
  {
    var ps := ["a", "", "b"];
    assert Strip("a") == "a" by { StripOfStripped("a"); }
    assert Strip("b") == "b" by { StripOfStripped("b"); }
    assert Strip("") == "";
    var t1 := ps[1..];
    var t2 := t1[1..];
    assert KeepNonBlank(t2) == ["b"] + KeepNonBlank(t2[1..]);
    assert KeepNonBlank(t1) == KeepNonBlank(t2);
    assert KeepNonBlank(ps) == ["a"] + KeepNonBlank(t1);
  }

  /** The two senders disagree on `"a;;b"`: the raw envelope keeps the empty
      address between the two semicolons, the mail client drops it. */
  lemma RawEnvelopeKeepsBlanks()
    ensures Split("a;;b", ";") == ["a", "", "b"]
    ensures MailClient.ParseRecipients("a;;b") == ["a", "b"]
  {
    RawSplitExample();
    KeepExample();
    ParseIsTrimmedSplit("a;;b");
  }

  // ---------------------------------------------------------------------------
  // The SMTP session

  datatype Step =
    | Connect(host: string, port: Option<int>, timeout: Option<int>)
    | StartTls
    | Login(user: string, password: string)
    | Transmit(from: string, to: seq<string>, message: MailClient.Message)

  /** Whether the session logs in: both user name and password are truthy. */
  predicate LogsIn(s: Settings) {
    StrTruthy(s.username) && StrTruthy(s.password)
  }

  /** The session `send_schedule_mail` runs against `host`: connect, STARTTLS
      iff SSL is truthy, login with the resolved credentials iff both are
      truthy, then send. */
  function Session(s: Settings, host: string, t: MailTask, m: MailClient.Message): (p: seq<Step>)
    ensures |p| == 2 + (if BoolTruthy(s.useSsl) then 1 else 0) + (if LogsIn(s) then 1 else 0)
    ensures p[0] == Connect(host, s.port, t.smtpTimeout)
    ensures p[|p| - 1] == Transmit(t.sender, RawEnvelope(t), m)
    ensures StartTls in p <==> BoolTruthy(s.useSsl)
    ensures BoolTruthy(s.useSsl) ==> p[1] == StartTls
    ensures p[|p| - 2].Login? <==> LogsIn(s)
    ensures LogsIn(s) ==> p[|p| - 2] == Login(s.username.value, s.password.value)
  {
    var connect := Connect(host, s.port, t.smtpTimeout);
    var send := Transmit(t.sender, RawEnvelope(t), m);
    var tls := if BoolTruthy(s.useSsl) then [StartTls] else [];
    var login := if LogsIn(s) then [Login(s.username.value, s.password.value)] else [];
    [connect] + tls + login + [send]
  }

  /** The exception class a step raises: `SMTPAuthenticationError` or any
      other. Only `login` raises the former; the model lets a `fault`
      parameter raise it at any step, which over-approximates the library,
      and every property below holds for every `fault`. */
  datatype Fault = AuthError | OtherError

  /** Steps run in order until the first one that raises. The result is the
      exception raised, if any, and how many steps were attempted. */
  function Run(steps: seq<Step>, fault: Step -> Option<Fault>): (r: (Option<Fault>, nat))
    ensures r.1 <= |steps|
    ensures r.0.None? ==> r.1 == |steps|
    ensures r.0.None? <==> forall i :: 0 <= i < |steps| ==> fault(steps[i]).None?
    ensures r.0.Some? ==> r.1 > 0 && fault(steps[r.1 - 1]) == r.0
    ensures forall i :: 0 <= i < r.1 - 1 ==> fault(steps[i]).None?
  {
    if |steps| == 0 then (None, 0)
    else if fault(steps[0]).Some? then (fault(steps[0]), 1)
    else
      var rest := Run(steps[1..], fault);
      assert forall i :: 1 <= i < |steps| ==> steps[i] == steps[1..][i - 1];
      (rest.0, rest.1 + 1)
  }

  datatype Outcome = Sent | HostNotConfigured | AuthFailed | Unexpected

  /** The `(ok, message)` tuple, with the steps attempted before it. */
  datatype SendResult = SendResult(ok: bool, outcome: Outcome, attempted: seq<Step>)

  /** The outcome an exception of class `f` is reported as. */
  function Reported(f: Fault): Outcome
  {
    match f
    case AuthError => AuthFailed
    case OtherError => Unexpected
  }

  /** The session a send plans: settings resolve, a host is set and the
      message builds. `None` when the send stops before connecting. */
  function Planned(t: MailTask, cfg: Option<SmtpDefaults>, encode: string -> string,
                   charsetOk: (string, Option<string>) -> bool): Option<seq<Step>>
  {
    match LoadSettings(t, cfg)
    case Failure(_) => None
    case Success(s) =>
      if !StrTruthy(s.host) then None
      else match BuildMessage(t, encode, charsetOk)
        case None => None
        case Some(m) => Some(Session(s, s.host.value, t, m))
  }

  /** `send_schedule_mail`. `Failure(name)` is the `AttributeError` of a
      missing `DEFAULT_SMTP_*` setting, which escapes because it is raised
      before the `try`. Inside the `try` nothing escapes: an authentication
      error becomes `AuthFailed`, any other one `Unexpected`. */
  function SendScheduleMail(t: MailTask, cfg: Option<SmtpDefaults>, encode: string -> string,
                            charsetOk: (string, Option<string>) -> bool,
                            fault: Step -> Option<Fault>): (r: Result<SendResult, string>)
    ensures r.Failure? <==> cfg.None? && NeedsDefaults(t)
    ensures r.Failure? ==> r.error == FirstDefaultRead(t)
    ensures r.Success? ==> (r.value.ok <==> r.value.outcome == Sent)
    ensures r.Success? ==>
              (r.value.outcome == HostNotConfigured <==> !StrTruthy(LoadSettings(t, cfg).value.host))
    ensures r.Success? && Planned(t, cfg, encode, charsetOk).None? ==> r.value.attempted == []
    ensures (r.Success? && StrTruthy(LoadSettings(t, cfg).value.host)
             && BuildMessage(t, encode, charsetOk).None?) ==> r.value.outcome == Unexpected
    ensures Planned(t, cfg, encode, charsetOk).Some? ==>
              var p := Planned(t, cfg, encode, charsetOk).value;
              var a := r.value.attempted;
              r.Success? && 0 < |a| <= |p| && a == p[..|a|]
              && (forall i :: 0 <= i < |a| - 1 ==> fault(a[i]).None?)
              && (r.value.ok <==> forall i :: 0 <= i < |p| ==> fault(p[i]).None?)
              && (r.value.ok ==> a == p)
              && (!r.value.ok ==> fault(a[|a| - 1]).Some? && r.value.outcome == Reported(fault(a[|a| - 1]).value))
  {
    match LoadSettings(t, cfg)
    case Failure(name) => Failure(name)
    case Success(s) =>
      if !StrTruthy(s.host) then Success(SendResult(false, HostNotConfigured, []))
      else match BuildMessage(t, encode, charsetOk)
        case None => Success(SendResult(false, Unexpected, []))
        case Some(m) =>
          var p := Session(s, s.host.value, t, m);
          var (f, n) := Run(p, fault);
          var attempted := p[..n];
          assert forall i :: 0 <= i < n ==> attempted[i] == p[i];
          match f
          case None => Success(SendResult(true, Sent, attempted))
          case Some(e) => Success(SendResult(false, Reported(e), attempted))
  }

  /** A send that raises nowhere succeeds whenever a host is configured, the
      body type is set and the body encodes, and then every planned step was
      attempted. */
  lemma FaultFreeSends(t: MailTask, d: SmtpDefaults, encode: string -> string,
                       charsetOk: (string, Option<string>) -> bool, fault: Step -> Option<Fault>)
    requires StrTruthy(ResolveSettings(t, d).host) && t.bodyType.Some? && charsetOk(t.body, t.encoding)
    requires forall st :: fault(st).None?
    ensures var r := SendScheduleMail(t, Some(d), encode, charsetOk, fault);
            r.Success? && r.value.ok
            && |r.value.attempted| == 2 + (if BoolTruthy(ResolveSettings(t, d).useSsl) then 1 else 0)
                                        + (if LogsIn(ResolveSettings(t, d)) then 1 else 0)
  {
  }

  /** A step that raises makes the send fail: the first raising step of the
      planned session is the last one attempted, and its exception class
      decides the outcome. */
  lemma FaultySendFails(t: MailTask, cfg: Option<SmtpDefaults>, encode: string -> string,
                        charsetOk: (string, Option<string>) -> bool, fault: Step -> Option<Fault>, k: nat)
    requires Planned(t, cfg, encode, charsetOk).Some?
    requires var p := Planned(t, cfg, encode, charsetOk).value;
             k < |p| && fault(p[k]).Some? && forall i :: 0 <= i < k ==> fault(p[i]).None?
    ensures var p := Planned(t, cfg, encode, charsetOk).value;
            var r := SendScheduleMail(t, cfg, encode, charsetOk, fault);
            r.Success? && !r.value.ok && r.value.attempted == p[..k + 1]
            && r.value.outcome == Reported(fault(p[k]).value)
  {
    var p := Planned(t, cfg, encode, charsetOk).value;
    var a := SendScheduleMail(t, cfg, encode, charsetOk, fault).value.attempted;
    assert 0 < |a| <= |p| && a == p[..|a|];
    assert forall i :: 0 <= i < |a| ==> a[i] == p[i];
    assert |a| == k + 1;
  }

  /** With the shipped configuration, which defines no `DEFAULT_SMTP_*`
      setting, the host check can never fail: a send either raises before it
      or has the schedule's own host. */
  lemma ShippedHostCheckUnreachable(t: MailTask, encode: string -> string,
                                    charsetOk: (string, Option<string>) -> bool, fault: Step -> Option<Fault>)
    ensures var r := SendScheduleMail(t, None, encode, charsetOk, fault);
            r.Success? ==> r.value.outcome != HostNotConfigured
  {
  }

  /** A schedule with a host and port but no SMTP user. */
  function NoLoginTask(): MailTask
  {
    MailTask("a@example.com", None, "b@example.com", None, None, "hi", "body", Some("HTML"), None,
             Some("smtp.example.com"), Some(587), None, None, Some(true), Some(30))
  }

  /** As shipped, sending a schedule that relies on one default raises
      `AttributeError` instead of sending without login. */
  lemma ShippedConfigRaises(encode: string -> string, charsetOk: (string, Option<string>) -> bool,
                            fault: Step -> Option<Fault>)
    ensures SendScheduleMail(NoLoginTask(), None, encode, charsetOk, fault) == Failure("DEFAULT_SMTP_USER")
  {
  }

  /** With a configuration that defines the defaults no send raises, and it
      agrees with the shipped behaviour wherever that does not raise. */
  lemma ConfiguredSendNeverRaises(t: MailTask, d: SmtpDefaults, encode: string -> string,
                                  charsetOk: (string, Option<string>) -> bool, fault: Step -> Option<Fault>)
    ensures SendScheduleMail(t, Some(d), encode, charsetOk, fault).Success?
    ensures !NeedsDefaults(t) ==>
              SendScheduleMail(t, Some(d), encode, charsetOk, fault) == SendScheduleMail(t, None, encode, charsetOk, fault)
  {
    if !NeedsDefaults(t) {
      OwnSettingsIgnoreDefaults(t, d, d);
    }
  }

  /** With the defaults defined, a schedule without an SMTP user, such as
      `NoLoginTask()`, is sent over a session without a login step when no
      default user is configured either. */
  lemma ConfiguredNoUserNoLogin(t: MailTask, d: SmtpDefaults, encode: string -> string,
                                charsetOk: (string, Option<string>) -> bool)
    requires !StrTruthy(t.smtpUser) && !StrTruthy(d.user)
    ensures var p := Planned(t, Some(d), encode, charsetOk);
            p.Some? ==> forall i :: 0 <= i < |p.value| ==> !p.value[i].Login?
  {
    var s := ResolveSettings(t, d);
    assert !LogsIn(s);
    if Planned(t, Some(d), encode, charsetOk).Some? {
      var m := BuildMessage(t, encode, charsetOk).value;
      var p := Session(s, s.host.value, t, m);
      assert Planned(t, Some(d), encode, charsetOk) == Some(p);
      forall i | 0 <= i < |p| ensures !p[i].Login? {
        if 0 < i < |p| - 1 {
          assert i == 1;
        }
      }
    }
  }
}

=== FILE: ftp_client.dfy ===
/** File-transfer clients (`core/ftp_client.py`): the protocol factory with
    its default ports, the missing-local-file guard of `upload_file`, and the
    bookkeeping of `upload_files_with_pattern`. The file system and the server
    are parameters: `present(path)` says whether a local file exists,
    `transfer(local, remote)` whether the upload call returns without raising,
    and `remove(path)` whether deleting a local file succeeds. The list of
    matched files is the input `files`, standing for the result of `glob`. */
module FileTransfer {
  import opened Wrappers
  import opened PyStr
  import Validators

  /** A client built by the factory. Only the FTP client has a passive-mode flag. */
  datatype TransferClient =
    | FtpClient(host: string, port: int, username: string, password: Option<string>,
                timeout: int, passiveMode: bool)
    | SftpClient(host: string, port: int, username: string, password: Option<string>,
                 timeout: int)

  /** `ValueError(f"Unsupported protocol: {protocol}")`, with the upper-cased name. */
  datatype FactoryError = UnsupportedProtocol(protocol: string)

  const FtpDefaultPort := 21
  const SftpDefaultPort := 22

  /** `FTPClientFactory.create_client`: the protocol name is upper-cased; `FTP`
      and `SFTP` build the matching client on the given port, or on the
      protocol's default port when the port is `None` or `0`; every other name
      is refused. The username defaults to `"anonymous"` for both. */
  function CreateClient(protocol: string, host: string, port: Option<int> := None,
                        username: string := "anonymous", password: Option<string> := None,
                        timeout: int := 30, passiveMode: bool := true): (r: Result<TransferClient, FactoryError>)
    ensures r.Success? <==> Upper(protocol) == "FTP" || Upper(protocol) == "SFTP"
    ensures r.Success? ==> (r.value.FtpClient? <==> Upper(protocol) == "FTP")
    ensures r.Success? && IntTruthy(port) ==> r.value.port == port.value
    ensures r.Success? && !IntTruthy(port) ==>
              r.value.port == if r.value.FtpClient? then FtpDefaultPort else SftpDefaultPort
    ensures r.Success? ==> r.value.host == host && r.value.username == username &&
                           r.value.password == password && r.value.timeout == timeout
    ensures r.Success? && r.value.FtpClient? ==> r.value.passiveMode == passiveMode
    ensures r.Failure? ==> r.error == UnsupportedProtocol(Upper(protocol))
  {
    var name := Upper(protocol);
    if name == "FTP" then
      Success(FtpClient(host, if IntTruthy(port) then port.value else FtpDefaultPort,
                        username, password, timeout, passiveMode))
    else if name == "SFTP" then
      Success(SftpClient(host, if IntTruthy(port) then port.value else SftpDefaultPort,
                         username, password, timeout))
    else Failure(UnsupportedProtocol(name))
  }

  /** The protocol name is matched without regard to case. */
  lemma CreateClientCaseInsensitive(protocol: string, host: string, port: Option<int>,
                                    username: string, password: Option<string>,
                                    timeout: int, passiveMode: bool)
    ensures CreateClient(Upper(protocol), host, port, username, password, timeout, passiveMode)
         == CreateClient(protocol, host, port, username, password, timeout, passiveMode)
  {
    UpperIdempotent(protocol);
  }

  /** FTPS, although named in the factory's documentation, is refused. */
  lemma FtpsRefused(host: string)
    ensures CreateClient("FTPS", host) == Failure(UnsupportedProtocol("FTPS"))
  {
    Validators.UpperOfAsciiUpper("FTPS");
  }

  /** Through the factory an SFTP client logs in as `"anonymous"` unless told
      otherwise, not as `"root"`, the SFTP client's own default; its port is 22. */
  lemma SftpFactoryDefaults(host: string)
    ensures CreateClient("SFTP", host) == Success(SftpClient(host, 22, "anonymous", None, 30))
  {
    Validators.UpperOfAsciiUpper("SFTP");
  }

  /** The factory never builds a client on an invalid port unless asked to:
      the default ports pass `validate_port`, and a given port is kept as is. */
  lemma FactoryPortsValid(protocol: string, host: string, port: Option<int>, username: string,
                          password: Option<string>, timeout: int, passiveMode: bool)
    requires port.Some? ==> port.value == 0 || Validators.ValidatePort(port.value)
    ensures var r := CreateClient(protocol, host, port, username, password, timeout, passiveMode);
            r.Success? ==> Validators.ValidatePort(r.value.port)
  {
  }

  // ---------------------------------------------------------------------------
  // Single uploads

  /** `os.path.basename`: the part after the last `/`. */
  function Basename(p: string): (r: string)
    ensures |r| <= |p|
    ensures forall k :: 0 <= k < |r| ==> r[k] == p[|p| - |r| + k] && r[k] != '/'
    ensures |r| < |p| ==> p[|p| - |r| - 1] == '/'
  {
    if |p| == 0 || p[|p| - 1] == '/' then ""
    else Basename(p[..|p| - 1]) + [p[|p| - 1]]
  }

  /** `f"{remote_dir}/{file_name}"`. */
  function RemotePath(remoteDir: string, local: string): (r: string)
    ensures |r| == |remoteDir| + 1 + |Basename(local)|
    ensures r[..|remoteDir|] == remoteDir && r[|remoteDir|] == '/'
    ensures r[|remoteDir| + 1..] == Basename(local)
  {
    var b := Basename(local);
    var r := remoteDir + "/" + b;
    assert r[..|remoteDir|] == remoteDir;
    assert r[|remoteDir| + 1..] == b;
    r
  }

  /** A character other than `/` extends the basename. */
  lemma BasenameSnoc(q: string, c: char)
    requires c != '/'
    ensures Basename(q + [c]) == Basename(q) + [c]
  {
    assert (q + [c])[..|q|] == q;
  }

  /** A name without `/` is the basename of any path that ends in `/` and it. */
  lemma {:induction false} BasenameAfterSlash(x: string, b: string)
    requires '/' !in b
    ensures Basename(x + "/" + b) == b
    decreases |b|
  {
    if |b| == 0 {
      assert x + "/" + b == x + "/";
    } else {
      var b' := b[..|b| - 1];
      var c := b[|b| - 1];
      assert b == b' + [c];
      assert x + "/" + b == (x + "/" + b') + [c];
      BasenameAfterSlash(x, b');
      BasenameSnoc(x + "/" + b', c);
    }
  }

  /** The remote file keeps the local file's name: the basename of the remote
      path is the basename of the local one. */
  lemma RemotePathBasename(remoteDir: string, local: string)
    ensures Basename(RemotePath(remoteDir, local)) == Basename(local)
  {
    var b := Basename(local);
    assert '/' !in b by {
      forall k | 0 <= k < |b| ensures b[k] != '/' {}
    }
    assert RemotePath(remoteDir, local) == remoteDir + "/" + b;
    BasenameAfterSlash(remoteDir, b);
  }

  /** The result of `upload_file`, and whether a transfer was started. */
  datatype UploadResult = UploadResult(ok: bool, transferred: bool)

  /** `upload_file` (either client): a missing local file gives `False` without
      a transfer; otherwise the result is whether the transfer returned, a
      raised exception counting as `False`. */
  function UploadFile(local: string, remote: string, present: string -> bool,
                      transfer: (string, string) -> bool): (r: UploadResult)
    ensures r.transferred <==> present(local)
    ensures r.ok ==> r.transferred
    ensures r.transferred ==> (r.ok <==> transfer(local, remote))
  {
    if !present(local) then UploadResult(false, false)
    else UploadResult(transfer(local, remote), true)
  }

  // ---------------------------------------------------------------------------
  // Batch upload

  /** Whether `local` uploads successfully into `remoteDir`. */
  predicate UploadsOk(local: string, remoteDir: string, present: string -> bool,
                      transfer: (string, string) -> bool) {
    UploadFile(local, RemotePath(remoteDir, local), present, transfer).ok
  }

  /** Reference: the files that upload successfully, in order. */
  function Uploaded(files: seq<string>, remoteDir: string, present: string -> bool,
                    transfer: (string, string) -> bool): (r: seq<string>)
    ensures |r| <= |files|
    ensures forall f :: f in r ==> f in files && UploadsOk(f, remoteDir, present, transfer)
  {
    if |files| == 0 then []
    else
      (if UploadsOk(files[0], remoteDir, present, transfer) then [files[0]] else [])
        + Uploaded(files[1..], remoteDir, present, transfer)
  }

  /** The files that upload are exactly the matched files that exist locally
      and whose transfer to `remote_dir/basename` returns; a missing file is
      never among them. */
  lemma {:induction false} UploadedExactly(files: seq<string>, remoteDir: string, present: string -> bool,
                                           transfer: (string, string) -> bool)
    ensures forall f :: f in Uploaded(files, remoteDir, present, transfer) <==>
              f in files && present(f) && transfer(f, RemotePath(remoteDir, f))
    decreases |files|
  {
    if |files| > 0 {
      UploadedExactly(files[1..], remoteDir, present, transfer);
      assert forall f :: f in files <==> f == files[0] || f in files[1..];
    }
  }

  lemma {:induction false} UploadedAppend(a: seq<string>, b: seq<string>, remoteDir: string,
                                          present: string -> bool, transfer: (string, string) -> bool)
    ensures Uploaded(a + b, remoteDir, present, transfer)
         == Uploaded(a, remoteDir, present, transfer) + Uploaded(b, remoteDir, present, transfer)
    decreases |a|
  {
    if |a| == 0 {
      assert a + b == b;
    } else {
      assert (a + b)[0] == a[0];
      assert (a + b)[1..] == a[1..] + b;
      UploadedAppend(a[1..], b, remoteDir, present, transfer);
    }
  }

  lemma UploadedStep(files: seq<string>, i: nat, remoteDir: string,
                     present: string -> bool, transfer: (string, string) -> bool)
    requires i < |files|
    ensures Uploaded(files[..i + 1], remoteDir, present, transfer)
         == Uploaded(files[..i], remoteDir, present, transfer)
            + (if UploadsOk(files[i], remoteDir, present, transfer) then [files[i]] else [])
  {
    UploadedAppend(files[..i], [files[i]], remoteDir, present, transfer);
    assert files[..i + 1] == files[..i] + [files[i]];
    assert Uploaded([files[i]], remoteDir, present, transfer)
        == (if UploadsOk(files[i], remoteDir, present, transfer) then [files[i]] else [])
           + Uploaded([files[i]][1..], remoteDir, present, transfer);
  }

  /** The remote path of each file, in order. */
  function Targets(files: seq<string>, remoteDir: string): (r: seq<string>)
    ensures |r| == |files|
    ensures forall i :: 0 <= i < |files| ==> r[i] == RemotePath(remoteDir, files[i])
  {
    if |files| == 0 then []
    else Targets(files[..|files| - 1], remoteDir) + [RemotePath(remoteDir, files[|files| - 1])]
  }

  /** The delete attempts that succeed, in order. */
  function Removed(attempts: seq<string>, remove: string -> bool): (r: seq<string>)
    ensures forall f :: f in r <==> f in attempts && remove(f)
  {
    if |attempts| == 0 then []
    else
      var n := |attempts| - 1;
      assert attempts == attempts[..n] + [attempts[n]];
      Removed(attempts[..n], remove) + (if remove(attempts[n]) then [attempts[n]] else [])
  }

  lemma {:induction false} RemovedAppend(a: seq<string>, b: seq<string>, remove: string -> bool)
    ensures Removed(a + b, remove) == Removed(a, remove) + Removed(b, remove)
    decreases |b|
  {
    if |b| > 0 {
      var n := |b| - 1;
      assert (a + b)[..|a + b| - 1] == a + b[..n];
      assert (a + b)[|a + b| - 1] == b[n];
      RemovedAppend(a, b[..n], remove);
    } else {
      assert a + b == a;
    }
  }

  /** One pass of the upload loop over `local`: its remote target, whether it
      uploaded, the delete it attempts and the removal that succeeds. */
  method UploadOne(local: string, remoteDir: string, deleteAfter: bool,
                   present: string -> bool, transfer: (string, string) -> bool, remove: string -> bool)
    returns (ok: bool, remote: string, attempt: seq<string>, gone: seq<string>)
    ensures remote == RemotePath(remoteDir, local)
    ensures ok == UploadsOk(local, remoteDir, present, transfer)
    ensures attempt == if deleteAfter && ok then [local] else []
    ensures gone == Removed(attempt, remove)
  {
    remote := RemotePath(remoteDir, local);
    var r := UploadFile(local, remote, present, transfer);
    ok := r.ok;
    attempt, gone := [], [];
    if ok && deleteAfter {
      attempt := [local];
      assert attempt[..0] == [];
      if remove(local) {
        gone := [local];
      }
    }
  }

  /** `upload_files_with_pattern`: each matched file is uploaded to
      `remote_dir + "/" + basename`; successes and failures are counted; when
      `deleteAfter` is set, deletion is attempted for exactly the uploaded
      files, and whether it works does not affect the counts. */
  method UploadFilesWithPattern(files: seq<string>, remoteDir: string, deleteAfter: bool,
                                present: string -> bool, transfer: (string, string) -> bool,
                                remove: string -> bool)
    returns (success: nat, failure: nat, targets: seq<string>, deleteAttempts: seq<string>, removed: seq<string>)
    ensures success + failure == |files|
    ensures success == |Uploaded(files, remoteDir, present, transfer)|
    ensures |targets| == |files|
    ensures forall i :: 0 <= i < |files| ==> targets[i] == RemotePath(remoteDir, files[i])
    ensures deleteAttempts == if deleteAfter then Uploaded(files, remoteDir, present, transfer) else []
    ensures forall f :: f in removed <==> f in deleteAttempts && remove(f)
  {
    success, failure, targets, deleteAttempts, removed := 0, 0, [], [], [];
    var i := 0;
    ghost var done: seq<string> := [];
    while i < |files|
      invariant 0 <= i <= |files|
      invariant done == Uploaded(files[..i], remoteDir, present, transfer)
      invariant success + failure == i
      invariant success == |done|
      invariant targets == Targets(files[..i], remoteDir)
      invariant deleteAttempts == if deleteAfter then done else []
      invariant removed == Removed(deleteAttempts, remove)
    {
      var ok, remote, attempt, gone := UploadOne(files[i], remoteDir, deleteAfter, present, transfer, remove);
      UploadedStep(files, i, remoteDir, present, transfer);
      RemovedAppend(deleteAttempts, attempt, remove);
      assert files[..i + 1][..i] == files[..i];
      targets := targets + [remote];
      done := done + (if ok then [files[i]] else []);
      if ok {
        success := success + 1;
      } else {
        failure := failure + 1;
      }
      deleteAttempts := deleteAttempts + attempt;
      removed := removed + gone;
      i := i + 1;
    }
    assert files[..i] == files;
  }
}

=== FILE: helpers.dfy ===
/** General string helpers of the application (`utils/helpers.py`):
    delimiter splitting with trimming, and truncation with a suffix. */
module Helpers {
  import opened Wrappers
  import opened PyStr

  /** `str.split` refuses an empty separator with ValueError. */
  datatype SplitError = EmptySeparator

  /** The list comprehension `[p.strip() for p in ps if p.strip()]`. */
  function KeepNonBlank(ps: seq<string>): (r: seq<string>)
    ensures |r| <= |ps|
  {
    if |ps| == 0 then []
    else (if Strip(ps[0]) != "" then [Strip(ps[0])] else []) + KeepNonBlank(ps[1..])
  }

  /** Every surviving piece is non-empty and trimmed. */
  lemma {:induction false} KeepNonBlankClean(ps: seq<string>)
    ensures forall i :: 0 <= i < |KeepNonBlank(ps)| ==>
              KeepNonBlank(ps)[i] != "" && Stripped(KeepNonBlank(ps)[i])
    decreases |ps|
  {
    if |ps| > 0 {
      var head := if Strip(ps[0]) != "" then [Strip(ps[0])] else [];
      var tail := KeepNonBlank(ps[1..]);
      KeepNonBlankClean(ps[1..]);
      var r := KeepNonBlank(ps);
      assert r == head + tail;
      forall i | 0 <= i < |r| ensures r[i] != "" && Stripped(r[i]) {
        if i >= |head| { assert r[i] == tail[i - |head|]; }
      }
    }
  }

  /** Exactly the non-blank pieces survive, each stripped. */
  lemma {:induction false} KeepNonBlankMembers(ps: seq<string>)
    ensures forall x :: x in KeepNonBlank(ps) <==> x != "" && exists j :: 0 <= j < |ps| && x == Strip(ps[j])
    decreases |ps|
  {
    if |ps| > 0 {
      KeepNonBlankMembers(ps[1..]);
      assert forall j :: 1 <= j < |ps| ==> ps[j] == ps[1..][j - 1];
      forall x | x != "" && (exists j :: 0 <= j < |ps| && x == Strip(ps[j]))
        ensures x in KeepNonBlank(ps)
      {
        var j :| 0 <= j < |ps| && x == Strip(ps[j]);
        if j > 0 { assert x == Strip(ps[1..][j - 1]); }
      }
    }
  }

  /** Filtering distributes over concatenation, so the pieces that survive keep
      the order they had in the input. */
  lemma {:induction false} KeepNonBlankAppend(a: seq<string>, b: seq<string>)
    ensures KeepNonBlank(a + b) == KeepNonBlank(a) + KeepNonBlank(b)
    decreases |a|
  {
    if |a| == 0 {
      assert a + b == b;
    } else {
      var t := a[1..];
      var head := if Strip(a[0]) != "" then [Strip(a[0])] else [];
      assert (a + b)[0] == a[0];
      assert (a + b)[1..] == t + b;
      assert KeepNonBlank(a + b) == head + KeepNonBlank(t + b);
      KeepNonBlankAppend(t, b);
      assert KeepNonBlank(a) == head + KeepNonBlank(t);
      ConcatAssoc(head, KeepNonBlank(t), KeepNonBlank(b));
    }
  }

  lemma ConcatAssoc<T>(x: seq<T>, y: seq<T>, z: seq<T>)
    ensures x + (y + z) == (x + y) + z
  {}

  /** Pieces that are already stripped and non-empty all survive unchanged. */
  lemma {:induction false} KeepNonBlankFixed(ps: seq<string>)
    requires forall p :: p in ps ==> p != "" && Strip(p) == p
    ensures KeepNonBlank(ps) == ps
    decreases |ps|
  {
    if |ps| > 0 {
      var t := ps[1..];
      assert forall p :: p in t ==> p in ps;
      KeepNonBlankFixed(t);
      assert KeepNonBlank(ps) == [ps[0]] + KeepNonBlank(t);
      assert ps == [ps[0]] + t;
    }
  }

  /** Stripping a piece cannot create an occurrence of the separator. */
  lemma StripKeepsSeparatorOut(p: string, sep: string)
    requires !Contains(p, sep)
    ensures !Contains(Strip(p), sep)
  {
    var t := Strip(p);
    var a := StripStart(p);
    forall k | OccursAt(t, sep, k) ensures false {
      OccursInSlice(p, a, a + |t|, sep, k);
    }
  }

  lemma {:induction false} KeptPiecesSeparatorFree(ps: seq<string>, sep: string)
    requires forall j :: 0 <= j < |ps| ==> !Contains(ps[j], sep)
    ensures forall i :: 0 <= i < |KeepNonBlank(ps)| ==> !Contains(KeepNonBlank(ps)[i], sep)
    decreases |ps|
  {
    if |ps| > 0 {
      var t := ps[1..];
      var head := if Strip(ps[0]) != "" then [Strip(ps[0])] else [];
      assert forall j :: 0 <= j < |t| ==> t[j] == ps[j + 1];
      KeptPiecesSeparatorFree(t, sep);
      StripKeepsSeparatorOut(ps[0], sep);
      var r := KeepNonBlank(ps);
      assert r == head + KeepNonBlank(t);
      forall i | 0 <= i < |r| ensures !Contains(r[i], sep) {
        if i >= |head| { assert r[i] == KeepNonBlank(t)[i - |head|]; }
      }
    }
  }

  /** `split_by_delimiter(text, delimiter)`: `None` or `""` gives the empty
      list; otherwise the pieces of `text.split(delimiter)` trimmed, with the
      blank ones dropped. Every element is non-empty, trimmed and free of the
      delimiter. */
  function SplitByDelimiter(text: Option<string>, delimiter: string := ";"): (r: Result<seq<string>, SplitError>)
    ensures !StrTruthy(text) ==> r == Success([])
    ensures r.Failure? <==> StrTruthy(text) && delimiter == ""
    ensures r.Success? ==> forall i :: 0 <= i < |r.value| ==> r.value[i] != "" && Stripped(r.value[i])
    ensures r.Success? && delimiter != "" ==>
              forall i :: 0 <= i < |r.value| ==> !Contains(r.value[i], delimiter)
  {
    if !StrTruthy(text) then Success([])
    else if delimiter == "" then Failure(EmptySeparator)
    else
      var ps := Split(text.value, delimiter);
      KeepNonBlankClean(ps);
      KeptPiecesSeparatorFree(ps, delimiter);
      Success(KeepNonBlank(ps))
  }

  /** With a one-character delimiter, splitting the delimiter-join of a result
      gives that result back. */
  lemma SplitByDelimiterIdempotent(text: Option<string>, c: char)
    requires SplitByDelimiter(text, [c]).Success?
    ensures var r := SplitByDelimiter(text, [c]).value;
            SplitByDelimiter(Some(Join(r, [c])), [c]) == Success(r)
  {
    var r := SplitByDelimiter(text, [c]).value;
    if |r| > 0 {
      forall i | 0 <= i < |r| ensures c !in r[i] {
        forall k | 0 <= k < |r[i]| ensures r[i][k] != c {
          OccursAtSingle(r[i], c, k);
        }
      }
      SplitJoin(r, c);
      forall p | p in r ensures p != "" && Strip(p) == p { StripOfStripped(p); }
      KeepNonBlankFixed(r);
      assert |Join(r, [c])| >= |r[0]| by { JoinLength(r, [c]); }
    }
  }

  lemma {:induction false} JoinLength(ps: seq<string>, sep: string)
    requires |ps| > 0
    ensures |Join(ps, sep)| >= |ps[0]|
  {}

  lemma ExamplePieces()
    ensures Split("a; b ; c", ";") == ["a", " b ", " c"]
  {
    var ps := ["a", " b ", " c"];
    assert Join(ps, ";") == "a; b ; c" by {
      assert Join(ps[2..], ";") == " c";
      assert Join(ps[1..], ";") == " b ; c";
    }
    forall i | 0 <= i < |ps| ensures ';' !in ps[i] {}
    SplitJoin(ps, ';');
  }

  lemma ExampleKept()
    ensures KeepNonBlank(["a", " b ", " c"]) == ["a", "b", "c"]
  {
    var ps := ["a", " b ", " c"];
    assert Strip("a") == "a" by { StripOfStripped("a"); }
    assert Strip(" b ") == "b" by {
      assert LeadingSpace(" b "[1..]) == 0;
      assert TrailingSpace(" b "[..2]) == 0;
      assert " b "[1..2] == "b";
    }
    assert Strip(" c") == "c" by {
      assert LeadingSpace(" c"[1..]) == 0;
      assert " c"[1..2] == "c";
    }
    var t1 := ps[1..];
    var t2 := t1[1..];
    assert t2 == [" c"];
    assert KeepNonBlank(t2[1..]) == [];
    assert KeepNonBlank(t2) == ["c"];
    assert KeepNonBlank(t1) == ["b"] + KeepNonBlank(t2);
    assert KeepNonBlank(ps) == ["a"] + KeepNonBlank(t1);
  }

  /** The documented example: `"a; b ; c"` split on `";"` is `["a", "b", "c"]`. */
  lemma SplitByDelimiterExample()
    ensures SplitByDelimiter(Some("a; b ; c"), ";") == Success(["a", "b", "c"])
  {
    ExamplePieces();
    ExampleKept();
  }

  /** Python's `s[:k]`: a negative `k` counts from the end of `s`. */
  function PyPrefix(s: string, k: int): (r: string)
    ensures |r| <= |s| && r == s[..|r|]
    ensures k >= 0 ==> |r| == if k <= |s| then k else |s|
    ensures k < 0 ==> |r| == if |s| + k >= 0 then |s| + k else 0
  {
    if k >= 0 then (if k <= |s| then s[..k] else s)
    else if |s| + k >= 0 then s[..|s| + k]
    else ""
  }

  /** `truncate_string(text, max_length, suffix)` as written: `text` if it
      fits, otherwise `text[:max_length - len(suffix)] + suffix`. */
  function TruncateString(text: string, maxLength: int := 100, suffix: string := "..."): (r: string)
    ensures |text| <= maxLength ==> r == text
    ensures |text| > maxLength ==> |r| >= |suffix| && r[|r| - |suffix|..] == suffix
    ensures |text| > maxLength >= |suffix| ==>
              |r| == maxLength && r[..maxLength - |suffix|] == text[..maxLength - |suffix|]
  {
    if |text| <= maxLength then text
    else
      var kept := PyPrefix(text, maxLength - |suffix|);
      assert (kept + suffix)[..|kept|] == kept;
      kept + suffix
  }

  /** The documented example: `("This is a very long string", 10)` gives `"This is..."`. */
  lemma TruncateStringExample()
    ensures TruncateString("This is a very long string", 10) == "This is..."
  {
    assert "This is a very long string"[..7] == "This is";
  }

  /** As written, a limit shorter than the suffix makes the "truncated" text
      longer than the limit: the slice bound goes negative and Python counts it
      from the end. `("abcdef", 2)` gives `"abcde..."`, longer even than the input. */
  lemma TruncateShortLimitOverflows(text: string, maxLength: int, suffix: string)
    requires 0 <= maxLength < |suffix| && |text| > maxLength
    ensures |TruncateString(text, maxLength, suffix)| > maxLength
  {}

  lemma TruncateShortLimitExample()
    ensures TruncateString("abcdef", 2) == "abcde..."
  {
    assert "abcdef"[..5] == "abcde";
  }

  /** Truncation as evidently intended: never longer than the limit (a
      negative limit counts as 0); identical to `TruncateString` whenever the
      limit leaves room for the suffix. */
  function TruncateStringBounded(text: string, maxLength: int := 100, suffix: string := "..."): (r: string)
    ensures |text| <= maxLength ==> r == text
    ensures |text| > maxLength ==> |r| == if maxLength >= 0 then maxLength else 0
    ensures |text| > maxLength && maxLength >= |suffix| ==> r == TruncateString(text, maxLength, suffix)
    ensures |text| > maxLength && maxLength < |suffix| ==> r == text[..|r|]
  {
    if |text| <= maxLength then text
    else if maxLength >= |suffix| then text[..maxLength - |suffix|] + suffix
    else if maxLength >= 0 then text[..maxLength]
    else ""
  }
}

=== FILE: http_client.dfy ===
/** The HTTP client (`core/http_client.py`): the retry loop, the five verb
    wrappers and the status check. The server is a parameter: `server(req, n)`
    is what the `n`-th attempt (from 0) of `req` yields, a response with a
    status code or an exception of one of the three classes the loop catches.
    Sleeps are counted, not timed. */
module HttpClient {
  import opened Wrappers
  import Validators

  /** A configured `HTTPClient`, with the constructor's defaults. */
  datatype Client = Client(
    timeout: int := 30,
    retryCount: int := 0,
    retryInterval: int := 5,
    verifySsl: bool := true)

  /** The exception classes the loop distinguishes (it treats them alike). */
  datatype ErrorKind = Timeout | RequestError | Unexpected

  /** What one attempt yields. */
  datatype Attempt = Response(status: int) | Raised(kind: ErrorKind)

  /** One request as handed to the transport. */
  datatype Request = Request(
    verb: string,
    url: string,
    headers: Option<map<string, string>>,
    params: Option<map<string, string>>,
    data: Option<string>,
    json: Option<string>)

  /** How `_execute_with_retry` ends: the response it returns, the exception of
      the last attempt re-raised, or `raise None` (a TypeError) when no attempt
      was made at all. */
  datatype Outcome = Returned(status: int) | Reraised(kind: ErrorKind) | RaisedNone

  datatype RetryReport = RetryReport(outcome: Outcome, attempts: nat, waits: nat)

  /** `len(range(retry_count + 1))`: the number of attempts allowed. */
  function Budget(retryCount: int): (b: nat)
    ensures retryCount >= 0 ==> b == retryCount + 1
    ensures retryCount < 0 ==> b == 0
  {
    if retryCount + 1 > 0 then retryCount + 1 else 0
  }

  /** Number of sleeps taken before attempt `attempt` starts (or, for
      `attempt == b`, after the loop). */
  function Waited(attempt: nat, b: nat): nat {
    if attempt < b then attempt else if b > 0 then b - 1 else 0
  }

  /** The loop from attempt `attempt` on, with `waits` sleeps taken so far and
      `last` the exception of the previous attempt. */
  function Loop(c: Client, req: Request, server: (Request, nat) -> Attempt,
                attempt: nat, waits: nat, last: Option<ErrorKind>): (r: RetryReport)
    requires attempt <= Budget(c.retryCount)
    requires waits == Waited(attempt, Budget(c.retryCount))
    requires attempt == 0 ==> last.None?
    requires attempt > 0 ==> last.Some? && server(req, attempt - 1) == Raised(last.value)
    ensures attempt <= r.attempts <= Budget(c.retryCount)
    ensures forall i :: attempt <= i < r.attempts - 1 ==> server(req, i).Raised?
    ensures r.outcome.Returned? <==> exists i :: attempt <= i < Budget(c.retryCount) && server(req, i).Response?
    ensures r.outcome.Returned? ==> r.attempts > attempt && server(req, r.attempts - 1) == Response(r.outcome.status)
    ensures !r.outcome.Returned? ==> r.attempts == Budget(c.retryCount)
    ensures r.outcome.Reraised? ==> r.attempts > 0 && server(req, r.attempts - 1) == Raised(r.outcome.kind)
    ensures r.outcome.RaisedNone? <==> Budget(c.retryCount) == 0
    ensures r.waits == if r.attempts == 0 then 0 else r.attempts - 1
    decreases Budget(c.retryCount) - attempt
  {
    var b := Budget(c.retryCount);
    if attempt == b then
      RetryReport(if last.Some? then Reraised(last.value) else RaisedNone, attempt, waits)
    else match server(req, attempt)
      case Response(st) => RetryReport(Returned(st), attempt + 1, waits)
      case Raised(k) =>
        var w := if attempt < c.retryCount then waits + 1 else waits;
        Loop(c, req, server, attempt + 1, w, Some(k))
  }

  /** `_execute_with_retry`: at most `retry_count + 1` attempts; the first
      attempt that yields a response ends the loop and that response is
      returned whatever its status; every exception counts as a failed
      attempt; a sleep follows each failed attempt except the last; when all
      attempts fail the last exception is re-raised. */
  function ExecuteWithRetry(c: Client, req: Request, server: (Request, nat) -> Attempt): (r: RetryReport)
    ensures r.attempts <= Budget(c.retryCount)
    ensures forall i :: 0 <= i < r.attempts - 1 ==> server(req, i).Raised?
    ensures r.outcome.Returned? <==> exists i :: 0 <= i < Budget(c.retryCount) && server(req, i).Response?
    ensures r.outcome.Returned? ==> r.attempts > 0 && server(req, r.attempts - 1) == Response(r.outcome.status)
    ensures !r.outcome.Returned? ==> r.attempts == Budget(c.retryCount)
    ensures r.outcome.Reraised? ==> r.attempts > 0 && server(req, r.attempts - 1) == Raised(r.outcome.kind)
    ensures r.outcome.RaisedNone? <==> c.retryCount < 0
    ensures r.waits == if r.attempts == 0 then 0 else r.attempts - 1
  {
    Loop(c, req, server, 0, 0, None)
  }

  /** When every attempt fails, exactly `retry_count + 1` attempts and
      `retry_count` sleeps are made and the last attempt's exception escapes. */
  lemma AllAttemptsFail(c: Client, req: Request, server: (Request, nat) -> Attempt)
    requires c.retryCount >= 0
    requires forall i :: 0 <= i <= c.retryCount ==> server(req, i).Raised?
    ensures var r := ExecuteWithRetry(c, req, server);
            r.outcome == Reraised(server(req, c.retryCount).kind) &&
            r.attempts == c.retryCount + 1 && r.waits == c.retryCount
  {
  }

  /** A server error on the first attempt is returned, not retried. */
  lemma ServerErrorNotRetried(c: Client, req: Request, server: (Request, nat) -> Attempt, status: int)
    requires c.retryCount >= 0
    requires server(req, 0) == Response(status)
    ensures ExecuteWithRetry(c, req, server) == RetryReport(Returned(status), 1, 0)
  {
  }

  /** The returned response comes from the first attempt that got one. */
  lemma FirstResponseWins(c: Client, req: Request, server: (Request, nat) -> Attempt, k: nat)
    requires k < Budget(c.retryCount)
    requires server(req, k).Response?
    requires forall i :: 0 <= i < k ==> server(req, i).Raised?
    ensures var r := ExecuteWithRetry(c, req, server);
            r.outcome == Returned(server(req, k).status) && r.attempts == k + 1 && r.waits == k
  {
  }

  // ---------------------------------------------------------------------------
  // The verb wrappers

  datatype Verb = Get | Post | Put | Delete | Patch

  /** The method name each wrapper passes. */
  function VerbName(v: Verb): (name: string)
    ensures name in Validators.ValidHttpMethods && Validators.ValidateHttpMethod(name)
  {
    Validators.WhitelistAccepted();
    assert Validators.ValidHttpMethods[..5] == ["GET", "POST", "PUT", "DELETE", "PATCH"];
    match v
    case Get => "GET"
    case Post => "POST"
    case Put => "PUT"
    case Delete => "DELETE"
    case Patch => "PATCH"
  }

  lemma VerbNamesDistinct(v: Verb, w: Verb)
    ensures VerbName(v) == VerbName(w) <==> v == w
  {
  }

  /** The request a wrapper builds: `get` forwards headers and query
      parameters, `post`, `put` and `patch` forward headers, data and json,
      `delete` forwards headers only. */
  function WrapperRequest(v: Verb, url: string, headers: Option<map<string, string>>,
                          params: Option<map<string, string>>, data: Option<string>,
                          json: Option<string>): (req: Request)
    ensures req.verb == VerbName(v) && req.url == url && req.headers == headers
    ensures req.params.Some? ==> v == Get
    ensures v == Get ==> req.params == params
    ensures req.data.Some? || req.json.Some? ==> v in {Post, Put, Patch}
    ensures v in {Post, Put, Patch} ==> req.data == data && req.json == json
  {
    match v
    case Get => Request(VerbName(v), url, headers, params, None, None)
    case Delete => Request(VerbName(v), url, headers, None, None, None)
    case _ => Request(VerbName(v), url, headers, None, data, json)
  }

  /** `get`, `post`, `put`, `delete` and `patch`: each runs the one retry loop
      on its own request, so each inherits the loop's guarantees. */
  function Call(c: Client, v: Verb, url: string, headers: Option<map<string, string>>,
                params: Option<map<string, string>>, data: Option<string>, json: Option<string>,
                server: (Request, nat) -> Attempt): (r: RetryReport)
    ensures var req := WrapperRequest(v, url, headers, params, data, json);
            r.outcome.Returned? <==> exists i :: 0 <= i < Budget(c.retryCount) && server(req, i).Response?
    ensures var req := WrapperRequest(v, url, headers, params, data, json);
            r.outcome.Returned? ==> r.attempts > 0 && server(req, r.attempts - 1) == Response(r.outcome.status)
    ensures r.attempts <= Budget(c.retryCount)
    ensures r.waits == if r.attempts == 0 then 0 else r.attempts - 1
  {
    ExecuteWithRetry(c, WrapperRequest(v, url, headers, params, data, json), server)
  }

  // ---------------------------------------------------------------------------
  // validate_response

  /** `response.status_code == expected_status`. */
  predicate ValidateResponse(status: int, expected: int := 200)
  {
    status == expected
  }

  /** Validating what a wrapper returns checks the status of the first attempt
      that got a response, so a server error that ends the loop fails the
      check instead of being retried. */
  lemma CallValidates(c: Client, v: Verb, url: string, headers: Option<map<string, string>>,
                      params: Option<map<string, string>>, data: Option<string>, json: Option<string>,
                      server: (Request, nat) -> Attempt, k: nat, expected: int)
    requires var req := WrapperRequest(v, url, headers, params, data, json);
             k < Budget(c.retryCount) && server(req, k).Response?
             && forall i :: 0 <= i < k ==> server(req, i).Raised?
    ensures var req := WrapperRequest(v, url, headers, params, data, json);
            var r := Call(c, v, url, headers, params, data, json, server);
            r.outcome.Returned?
            && (ValidateResponse(r.outcome.status, expected) <==> server(req, k).status == expected)
  {
    var req := WrapperRequest(v, url, headers, params, data, json);
    FirstResponseWins(c, req, server, k);
  }

  /** The checked case: a GET that receives 200, with one retry allowed,
      validates against the default expectation. */
  lemma GetOkValidates(url: string, server: (Request, nat) -> Attempt)
    requires server(WrapperRequest(Get, url, None, None, None, None), 0) == Response(200)
    ensures var r := Call(Client(timeout := 10, retryCount := 1), Get, url, None, None, None, None, server);
            r.outcome.Returned? && ValidateResponse(r.outcome.status)
  {
    var c := Client(timeout := 10, retryCount := 1);
    ServerErrorNotRetried(c, WrapperRequest(Get, url, None, None, None, None), server, 200);
  }
}

=== FILE: mail_client.dfy ===
/** The SMTP mail client (`core/mail_client.py`): recipient parsing, message
    composition, the envelope list, the choice between implicit TLS and
    STARTTLS, and the mapping of every failure to `False`. The SMTP library
    and the file system are parameters: `transport` says whether handing a
    submission to the library returned (`true`) or raised (`false`), and
    `files` says what reading each attachment path finds. */
module MailClient {
  import opened Wrappers
  import opened PyStr
  import opened Helpers
  import Validators

  /** A configured `MailClient`, with the constructor's defaults. */
  datatype Client = Client(
    host: string,
    port: int := 587,
    username: Option<string> := None,
    password: Option<string> := None,
    useSsl: bool := true,
    timeout: int := 30)

  /** The default port and the three ports the constructor documents (587
      for STARTTLS, 465 for SSL, 25 unencrypted) pass `validate_port`. */
  lemma DocumentedPortsValid(host: string)
    ensures Validators.ValidatePort(Client(host).port)
    ensures Validators.ValidatePort(25) && Validators.ValidatePort(465) && Validators.ValidatePort(587)
  {
  }

  // ---------------------------------------------------------------------------
  // Recipients

  /** `_parse_recipients`: the `;`-separated addresses, trimmed, blanks dropped;
      exactly `split_by_delimiter(recipients, ";")`. */
  function ParseRecipients(recipients: string): (r: seq<string>)
    ensures SplitByDelimiter(Some(recipients), ";") == Success(r)
    ensures forall i :: 0 <= i < |r| ==> r[i] != "" && Stripped(r[i]) && !Contains(r[i], ";")
  {
    var ps := Split(recipients, ";");
    if recipients == "" then
      assert ps == [""];
      assert Strip("") == "";
      []
    else
      KeepNonBlank(ps)
  }

  /** `self._parse_recipients(cc) if cc else None`. */
  function ParseOptional(s: Option<string>): (r: Option<seq<string>>)
    ensures r.None? <==> !StrTruthy(s)
    ensures r.Some? ==> SplitByDelimiter(s, ";") == Success(r.value)
  {
    if StrTruthy(s) then Some(ParseRecipients(s.value)) else None
  }

  function OrEmpty(l: Option<seq<string>>): seq<string> {
    if l.Some? then l.value else []
  }

  /** `all_recipients`: the To list, then the Cc list, then the Bcc list. */
  function AllRecipients(to: seq<string>, cc: Option<seq<string>>, bcc: Option<seq<string>>): (r: seq<string>)
    ensures |r| == |to| + |OrEmpty(cc)| + |OrEmpty(bcc)|
    ensures r[..|to|] == to
    ensures r[|to|..|to| + |OrEmpty(cc)|] == OrEmpty(cc)
    ensures r[|to| + |OrEmpty(cc)|..] == OrEmpty(bcc)
  {
    var withCc := if cc.Some? && |cc.value| > 0 then to + cc.value else to;
    if bcc.Some? && |bcc.value| > 0 then withCc + bcc.value else withCc
  }

  // ---------------------------------------------------------------------------
  // The message

  /** `f"{sender_name} <{sender}>" if sender_name else sender`. */
  function SenderAddress(sender: string, senderName: Option<string>): (r: string)
    ensures !StrTruthy(senderName) ==> r == sender
    ensures StrTruthy(senderName) ==>
              |r| == |senderName.value| + |sender| + 3 &&
              r[..|senderName.value|] == senderName.value &&
              r[|senderName.value|..|senderName.value| + 2] == " <" &&
              r[|r| - 1 - |sender|..|r| - 1] == sender && r[|r| - 1] == '>'
  {
    if StrTruthy(senderName) then senderName.value + " <" + sender + ">" else sender
  }

  /** The position of the last `c` in `s`, if any. */
  function LastIndex(s: string, c: char): (r: Option<nat>)
    ensures r.Some? ==> r.value < |s| && s[r.value] == c
    ensures r.Some? ==> forall j :: r.value < j < |s| ==> s[j] != c
    ensures r.None? ==> forall j :: 0 <= j < |s| ==> s[j] != c
  {
    if |s| == 0 then None
    else if s[|s| - 1] == c then Some(|s| - 1)
    else
      var r := LastIndex(s[..|s| - 1], c);
      assert forall j :: 0 <= j < |s| - 1 ==> s[..|s| - 1][j] == s[j];
      r
  }

  /** The address a `From` header names: the text between the last `<` and a
      closing `>` at the end, or the whole header when it has no such part. */
  function AddressOf(h: string): string
  {
    if |h| > 0 && h[|h| - 1] == '>' then
      match LastIndex(h, '<')
      case Some(k) => h[k + 1..|h| - 1]
      case None => h
    else h
  }

  /** The address can be read back from the `From` header whatever the display
      name is, as long as the address itself contains no `<`. */
  lemma SenderAddressRoundTrip(sender: string, senderName: Option<string>)
    requires '<' !in sender
    ensures AddressOf(SenderAddress(sender, senderName)) == sender
  {
    var h := SenderAddress(sender, senderName);
    if StrTruthy(senderName) {
      var n := senderName.value;
      assert h == n + " <" + sender + ">";
      var k := |n| + 1;
      assert h[k] == '<';
      assert forall j :: k < j < |h| ==> h[j] != '<' by {
        forall j | k < j < |h| ensures h[j] != '<' {
          if j < |h| - 1 {
            assert h[j] == sender[j - k - 1];
          }
        }
      }
      var r := LastIndex(h, '<');
      assert r == Some(k);
      assert h[k + 1..|h| - 1] == sender;
    } else {
      assert h == sender;
      if |h| > 0 && h[|h| - 1] == '>' {
        assert LastIndex(h, '<').None?;
      }
    }
  }

  /** The MIME subtype of the text part. */
  datatype Subtype = Html | Plain

  /** `"html" if body_type.upper() == "HTML" else "plain"`. */
  function BodySubtype(bodyType: string): (t: Subtype)
    ensures t == Html <==> Upper(bodyType) == "HTML"
  {
    if Upper(bodyType) == "HTML" then Html else Plain
  }

  /** For ASCII input the subtype is html exactly when the body type spells
      `HTML` in any mix of cases. */
  lemma BodySubtypeAscii(bodyType: string)
    requires Validators.IsAscii(bodyType)
    ensures BodySubtype(bodyType) == Html <==> Validators.MatchesIgnoringCase(bodyType, "HTML")
  {
    Validators.UpperOfAscii(bodyType);
    var u := Upper(bodyType);
    if Validators.MatchesIgnoringCase(bodyType, "HTML") {
      assert forall k :: 0 <= k < |u| ==> u[k] == "HTML"[k];
    }
  }

  /** The headers and parts of the composed `MIMEMultipart`; each attachment
      is identified by its path, and `charset` is the charset of the text
      part (`None`: the one `MIMEText` picks, `us-ascii` or `utf-8`). */
  datatype Message = Message(
    fromHeader: string,
    toHeader: string,
    subject: string,
    ccHeader: Option<string>,
    bccHeader: Option<string>,
    subtype: Subtype,
    charset: Option<string>,
    body: string,
    attachments: seq<string>)

  /** `", ".join(l)` when the list is present and non-empty, else no header. */
  function ListHeader(l: Option<seq<string>>): (h: Option<string>)
    ensures h.Some? <==> |OrEmpty(l)| > 0
    ensures h.Some? ==> |h.value| >= |l.value[0]|
  {
    if l.Some? && |l.value| > 0 then
      JoinLength(l.value, ", ");
      Some(Join(l.value, ", "))
    else None
  }

  /** `_create_message`. */
  function CreateMessage(sender: string, recipients: seq<string>, subject: string, body: string,
                         bodyType: string, cc: Option<seq<string>>, bcc: Option<seq<string>>): (m: Message)
    ensures m.fromHeader == sender && m.subject == subject && m.body == body
    ensures m.toHeader == Join(recipients, ", ")
    ensures m.ccHeader.Some? <==> |OrEmpty(cc)| > 0
    ensures m.bccHeader.Some? <==> |OrEmpty(bcc)| > 0
    ensures m.subtype == Html <==> Upper(bodyType) == "HTML"
    ensures m.charset == Some("utf-8") && m.attachments == []
  {
    Message(sender, Join(recipients, ", "), subject, ListHeader(cc), ListHeader(bcc),
            BodySubtype(bodyType), Some("utf-8"), body, [])
  }

  /** What `send_mail` receives besides the client settings. */
  datatype MailRequest = MailRequest(
    sender: string,
    recipients: string,
    subject: string,
    body: string,
    bodyType: string := "HTML",
    cc: Option<string> := None,
    bcc: Option<string> := None,
    senderName: Option<string> := None)

  /** The message `send_mail` builds for a request. */
  function Compose(req: MailRequest): (m: Message)
    ensures m.fromHeader == SenderAddress(req.sender, req.senderName)
    ensures m.toHeader == Join(ParseRecipients(req.recipients), ", ")
    ensures !StrTruthy(req.cc) ==> m.ccHeader == None
    ensures !StrTruthy(req.bcc) ==> m.bccHeader == None
    ensures m.ccHeader.Some? <==> StrTruthy(req.cc) && |ParseRecipients(req.cc.value)| > 0
    ensures m.bccHeader.Some? <==> StrTruthy(req.bcc) && |ParseRecipients(req.bcc.value)| > 0
    ensures m.subject == req.subject && m.body == req.body
    ensures m.subtype == Html <==> Upper(req.bodyType) == "HTML"
    ensures m.charset == Some("utf-8") && m.attachments == []
  {
    CreateMessage(SenderAddress(req.sender, req.senderName), ParseRecipients(req.recipients),
                  req.subject, req.body, req.bodyType, ParseOptional(req.cc), ParseOptional(req.bcc))
  }

  /** The envelope list counted before sending. */
  function Envelope(req: MailRequest): (r: seq<string>)
    ensures |r| == |ParseRecipients(req.recipients)| + |OrEmpty(ParseOptional(req.cc))| + |OrEmpty(ParseOptional(req.bcc))|
  {
    AllRecipients(ParseRecipients(req.recipients), ParseOptional(req.cc), ParseOptional(req.bcc))
  }

  // ---------------------------------------------------------------------------
  // The To header reads back as the recipient list

  /** Every piece preceded by one space. */
  function Spaced(ps: seq<string>): (r: seq<string>)
    ensures |r| == |ps|
    ensures forall i :: 0 <= i < |ps| ==> r[i] == " " + ps[i]
  {
    if |ps| == 0 then [] else [" " + ps[0]] + Spaced(ps[1..])
  }

  lemma JoinConsPrefix(x: string, h: string, t: seq<string>, sep: string)
    ensures Join([x + h] + t, sep) == x + Join([h] + t, sep)
  {
    if |t| > 0 {
      assert ([x + h] + t)[1..] == t;
      assert ([h] + t)[1..] == t;
    }
  }

  /** Joining with `", "` is joining the spaced pieces with `","`. */
  lemma {:induction false} JoinCommaSpace(ps: seq<string>)
    requires |ps| > 0
    ensures Join(ps, ", ") == Join([ps[0]] + Spaced(ps[1..]), ",")
    decreases |ps|
  {
    if |ps| > 1 {
      var t := ps[1..];
      JoinCommaSpace(t);
      assert t[0] == ps[1];
      var q := [ps[0]] + Spaced(t);
      assert q[1..] == Spaced(t);
      assert Spaced(t) == [" " + t[0]] + Spaced(t[1..]);
      JoinConsPrefix(" ", t[0], Spaced(t[1..]), ",");
      assert Join(q, ",") == ps[0] + "," + (" " + Join(t, ", "));
    }
  }

  lemma StripSpacePrefix(p: string)
    requires p != "" && Stripped(p)
    ensures Strip(" " + p) == p
  {
    var s := " " + p;
    assert s[1..] == p;
    assert LeadingSpace(s[1..]) == 0;
    assert LeadingSpace(s) == 1;
    assert TrailingSpace(s) == 0;
    assert s[1..|s|] == p;
  }

  /** Pieces that strip to the non-empty entries of `ps` are kept as exactly `ps`. */
  lemma {:induction false} KeepNonBlankStrips(q: seq<string>, ps: seq<string>)
    requires |q| == |ps|
    requires forall i :: 0 <= i < |q| ==> Strip(q[i]) == ps[i] && ps[i] != ""
    ensures KeepNonBlank(q) == ps
    decreases |q|
  {
    if |q| > 0 {
      KeepNonBlankStrips(q[1..], ps[1..]);
      assert KeepNonBlank(q) == [ps[0]] + KeepNonBlank(q[1..]);
      assert ps == [ps[0]] + ps[1..];
    }
  }

  /** A `", "`-joined header splits back, on `","` with trimming, into the list
      it was made from, provided no address contains a comma. */
  lemma HeaderRoundTrip(ps: seq<string>)
    requires forall i :: 0 <= i < |ps| ==> ps[i] != "" && Stripped(ps[i]) && ',' !in ps[i]
    ensures SplitByDelimiter(Some(Join(ps, ", ")), ",") == Success(ps)
  {
    if |ps| > 0 {
      JoinCommaSpace(ps);
      var q := [ps[0]] + Spaced(ps[1..]);
      forall i | 0 <= i < |q| ensures ',' !in q[i] && Strip(q[i]) == ps[i] {
        if i == 0 {
          StripOfStripped(ps[0]);
        } else {
          assert q[i] == " " + ps[i];
          StripSpacePrefix(ps[i]);
        }
      }
      SplitJoin(q, ',');
      KeepNonBlankStrips(q, ps);
      JoinLength(ps, ", ");
    }
  }

  lemma {:induction false} CharNotContained(p: string, c: char)
    requires !Contains(p, [c])
    ensures c !in p
  {
    forall k | 0 <= k < |p| ensures p[k] != c { OccursAtSingle(p, c, k); }
  }

  /** The addresses a header lists, read back on `","` with trimming. */
  function ReadHeader(h: Option<string>): seq<string>
  {
    match SplitByDelimiter(h, ",")
    case Success(v) => v
    case Failure(_) => []
  }

  lemma ToHeaderReadsBack(recipients: string)
    requires ',' !in recipients
    ensures ReadHeader(Some(Join(ParseRecipients(recipients), ", "))) == ParseRecipients(recipients)
  {
    ParsedCommaFree(recipients);
    HeaderRoundTrip(ParseRecipients(recipients));
  }

  lemma ListHeaderReadsBack(s: Option<string>)
    requires s.Some? ==> ',' !in s.value
    ensures ReadHeader(ListHeader(ParseOptional(s))) == OrEmpty(ParseOptional(s))
  {
    var l := ParseOptional(s);
    if l.Some? && |l.value| > 0 {
      ParsedCommaFree(s.value);
      HeaderRoundTrip(l.value);
    }
  }

  /** The addresses read back from the To, Cc and Bcc headers of the composed
      message are exactly the envelope list, in order, when no address contains
      a comma. */
  lemma EnvelopeMatchesHeaders(req: MailRequest)
    requires ',' !in req.recipients
    requires req.cc.Some? ==> ',' !in req.cc.value
    requires req.bcc.Some? ==> ',' !in req.bcc.value
    ensures var m := Compose(req);
            ReadHeader(Some(m.toHeader)) + ReadHeader(m.ccHeader) + ReadHeader(m.bccHeader) == Envelope(req)
  {
    ComposeHeaders(req);
    EnvelopeConcat(req);
    ToHeaderReadsBack(req.recipients);
    ListHeaderReadsBack(req.cc);
    ListHeaderReadsBack(req.bcc);
  }

  lemma ComposeHeaders(req: MailRequest)
    ensures Compose(req).toHeader == Join(ParseRecipients(req.recipients), ", ")
    ensures Compose(req).ccHeader == ListHeader(ParseOptional(req.cc))
    ensures Compose(req).bccHeader == ListHeader(ParseOptional(req.bcc))
  {
  }

  lemma EnvelopeConcat(req: MailRequest)
    ensures Envelope(req) == ParseRecipients(req.recipients) + OrEmpty(ParseOptional(req.cc))
                             + OrEmpty(ParseOptional(req.bcc))
  {
    AllRecipientsConcat(ParseRecipients(req.recipients), ParseOptional(req.cc), ParseOptional(req.bcc));
  }

  /** The envelope list is the three lists concatenated. */
  lemma AllRecipientsConcat(to: seq<string>, cc: Option<seq<string>>, bcc: Option<seq<string>>)
    ensures AllRecipients(to, cc, bcc) == to + OrEmpty(cc) + OrEmpty(bcc)
  {
  }

  /** Every character of a parsed address comes from the parsed string. */
  lemma ParsedChars(s: string)
    ensures forall i, c :: 0 <= i < |ParseRecipients(s)| && c in ParseRecipients(s)[i] ==> c in s
  {
    var r := ParseRecipients(s);
    if s != "" {
      var ps := Split(s, ";");
      SplitCharsFromInput(s, ";");
      KeepNonBlankMembers(ps);
      forall i, c | 0 <= i < |r| && c in r[i] ensures c in s {
        assert r[i] in KeepNonBlank(ps);
        var j :| 0 <= j < |ps| && r[i] == Strip(ps[j]);
        StripChars(ps[j]);
      }
    }
  }

  /** Parsed addresses of a comma-free string are comma-free. */
  lemma ParsedCommaFree(s: string)
    requires ',' !in s
    ensures forall i :: 0 <= i < |ParseRecipients(s)| ==> ',' !in ParseRecipients(s)[i]
  {
    ParsedChars(s);
  }

  /** Every parsed address stems from a character of the input that is
      neither whitespace nor a semicolon. */
  lemma ParsedHasVisibleChar(s: string)
    ensures |ParseRecipients(s)| > 0 ==> exists k :: 0 <= k < |s| && !IsSpace(s[k]) && s[k] != ';'
  {
    var r := ParseRecipients(s);
    if |r| > 0 {
      var x := r[0];
      ParsedChars(s);
      CharNotContained(x, ';');
      assert x[0] in s;
      var k :| 0 <= k < |s| && s[k] == x[0];
    }
  }

  /** A string of nothing but whitespace and semicolons parses to no addresses. */
  lemma ParseBlank(s: string)
    requires forall k :: 0 <= k < |s| ==> IsSpace(s[k]) || s[k] == ';'
    ensures ParseRecipients(s) == []
  {
    ParsedHasVisibleChar(s);
  }

  // ---------------------------------------------------------------------------
  // Sending

  datatype TlsMode = ImplicitTls | StartTls

  /** Implicit TLS exactly when SSL is requested on port 465; every other
      combination, including SSL switched off, asks for STARTTLS. */
  function ChooseTls(useSsl: bool, port: int): (t: TlsMode)
    ensures t == ImplicitTls <==> useSsl && port == 465
  {
    if useSsl && port == 465 then ImplicitTls else StartTls
  }

  /** Everything handed to the SMTP library for one send. */
  datatype Submission = Submission(
    message: Message,
    host: string,
    port: int,
    username: Option<string>,
    password: Option<string>,
    tls: TlsMode,
    timeout: int)

  /** The boolean `send_mail` returns, with the submission it attempted, if any. */
  datatype SendReport = SendReport(ok: bool, submitted: Option<Submission>)

  function Submit(c: Client, m: Message): (s: Submission)
    ensures s.message == m && s.host == c.host && s.port == c.port
    ensures s.username == c.username && s.password == c.password && s.timeout == c.timeout
    ensures s.tls == ImplicitTls <==> c.useSsl && c.port == 465
  {
    Submission(m, c.host, c.port, c.username, c.password, ChooseTls(c.useSsl, c.port), c.timeout)
  }

  /** `send_mail`: always attempts one submission; the result is `True` exactly
      when the library call returns, and a raised exception becomes `False`. */
  function SendMail(c: Client, req: MailRequest, transport: Submission -> bool): (rep: SendReport)
    ensures rep.submitted.Some?
    ensures rep.ok <==> transport(rep.submitted.value)
    ensures rep.submitted.value.message == Compose(req)
    ensures var s := rep.submitted.value;
            s.host == c.host && s.port == c.port && s.username == c.username
            && s.password == c.password && s.timeout == c.timeout
    ensures rep.submitted.value.tls == ImplicitTls <==> c.useSsl && c.port == 465
  {
    var s := Submit(c, Compose(req));
    SendReport(transport(s), Some(s))
  }

  /** Switching SSL off does not switch encryption off: the library is still
      asked for STARTTLS, on port 25 as on any other, although the constructor
      documents port 25 as unencrypted. Only SSL on port 465 uses implicit TLS. */
  lemma SslOffUsesStartTls(c: Client, req: MailRequest, transport: Submission -> bool)
    ensures !c.useSsl ==> SendMail(c, req, transport).submitted.value.tls == StartTls
    ensures c.port != 465 ==> SendMail(c, req, transport).submitted.value.tls == StartTls
  {
  }

  /** What opening an attachment path finds. */
  datatype FileState = Missing | Readable | Unreadable

  /** Reference: the readable paths, in order, once per occurrence. */
  function Readables(paths: seq<string>, files: string -> FileState): seq<string>
  {
    if |paths| == 0 then []
    else if files(paths[|paths| - 1]) == Readable then Readables(paths[..|paths| - 1], files) + [paths[|paths| - 1]]
    else Readables(paths[..|paths| - 1], files)
  }

  lemma {:induction false} ReadablesCons(p: string, rest: seq<string>, files: string -> FileState)
    ensures Readables([p] + rest, files) == (if files(p) == Readable then [p] else []) + Readables(rest, files)
    decreases |rest|
  {
    var ps := [p] + rest;
    if |rest| > 0 {
      var init := rest[..|rest| - 1];
      assert ps[..|ps| - 1] == [p] + init;
      assert ps[|ps| - 1] == rest[|rest| - 1];
      ReadablesCons(p, init, files);
    } else {
      assert ps[..|ps| - 1] == [];
    }
  }

  /** The `_attach_file` loop: missing files are skipped, readable ones are
      attached in order, and an unreadable one raises (`None`). */
  function AttachAll(paths: seq<string>, files: string -> FileState): (r: Option<seq<string>>)
    ensures r.None? <==> exists i :: 0 <= i < |paths| && files(paths[i]) == Unreadable
    ensures r.Some? ==> r.value == Readables(paths, files)
    ensures r.Some? ==> |r.value| <= |paths|
    ensures r.Some? ==> forall p :: p in r.value <==> p in paths && files(p) == Readable
  {
    if |paths| == 0 then Some([])
    else
      ReadablesCons(paths[0], paths[1..], files);
      assert [paths[0]] + paths[1..] == paths;
      var rest := AttachAll(paths[1..], files);
      assert forall p :: p in paths <==> p == paths[0] || p in paths[1..];
      match files(paths[0])
      case Unreadable => None
      case Missing => rest
      case Readable => if rest.Some? then Some([paths[0]] + rest.value) else None
  }

  /** `send_mail_with_attachments`: the attachment paths are split by the same
      trim-and-drop-blank rule as recipients; an unreadable attachment makes the
      call return `False` before anything is submitted. */
  function SendMailWithAttachments(c: Client, req: MailRequest, attachmentPaths: string,
                                   files: string -> FileState, transport: Submission -> bool): (rep: SendReport)
    ensures var paths := ParseRecipients(attachmentPaths);
            rep.submitted.None? <==> exists i :: 0 <= i < |paths| && files(paths[i]) == Unreadable
    ensures rep.submitted.None? ==> !rep.ok
    ensures rep.submitted.Some? ==> (rep.ok <==> transport(rep.submitted.value))
    ensures rep.submitted.Some? ==>
              rep.submitted.value.message.attachments == Readables(ParseRecipients(attachmentPaths), files)
    ensures rep.submitted.Some? ==>
              forall p :: p in rep.submitted.value.message.attachments <==>
                p in ParseRecipients(attachmentPaths) && files(p) == Readable
    ensures rep.submitted.Some? ==>
              var s := rep.submitted.value;
              s.(message := s.message.(attachments := [])) == SendMail(c, req, transport).submitted.value
  {
    match AttachAll(ParseRecipients(attachmentPaths), files)
    case None => SendReport(false, None)
    case Some(attached) =>
      var s := Submit(c, Compose(req).(attachments := attached));
      SendReport(transport(s), Some(s))
  }

  /** With no attachment paths the two send operations coincide. */
  lemma NoAttachmentsIsSendMail(c: Client, req: MailRequest, blank: string,
                                files: string -> FileState, transport: Submission -> bool)
    requires forall i :: 0 <= i < |blank| ==> IsSpace(blank[i]) || blank[i] == ';'
    ensures SendMailWithAttachments(c, req, blank, files, transport) == SendMail(c, req, transport)
  {
    ParseBlank(blank);
  }
}

=== FILE: mail_store.dfy ===
/** The mail-schedule store (`crud/mail.py`) over the `tblschedulemail`
    table: get by id, paged listing, create, partial update, status update and
    delete. The table is a sequence of rows in id order with the next
    autoincrement id; the clock reading `datetime.utcnow()` (and the
    database's `now()`) is the parameter `now`. */
module MailStore {
  import opened Wrappers

  /** The columns of `tblschedulemail` other than `id`. */
  datatype Column =
    | Progcode | Sender | SenderName | Recipients | Cc | Bcc | ReplyTo | Subject | Body
    | BodyType | Priority | Encoding | AttachmentPaths | SmtpHost | SmtpPort | SmtpUsername
    | SmtpPassword | SmtpEnableSsl | SmtpTimeoutSeconds | LastExecuteTime | LastSuccessTime
    | LastErrorMessage | ExecuteCount | SuccessCount | FailureCount | IsEnabled | ScheduleCron
    | NextExecuteTime | CreatedBy | CreatedDate | ModifiedBy | ModifiedDate | Remark
    | ExecutionStatus | CurrentRetryCount

  /** A column value; timestamps are plain numbers. */
  datatype Value = Null | Str(s: string) | Int(i: int) | Bool(b: bool) | Time(t: int)

  /** Columns declared `nullable=False`. */
  predicate NotNull(c: Column) {
    c in {Progcode, Sender, Recipients, Subject, Body}
  }

  /** Columns a create request does not carry; the table fills them in. */
  predicate TableOnly(c: Column) {
    match c
    case LastExecuteTime | LastSuccessTime | LastErrorMessage | ExecuteCount | SuccessCount
       | FailureCount | NextExecuteTime | CreatedDate | ModifiedDate | ExecutionStatus
       | CurrentRetryCount => true
    case _ => false
  }

  /** The fields of `MailScheduleCreate`. */
  predicate CreateField(c: Column) {
    !TableOnly(c)
  }

  /** The fields of `MailScheduleUpdate`: the create fields except `createdby`. */
  predicate UpdateField(c: Column) {
    CreateField(c) && c != CreatedBy
  }

  /** The defaults `MailScheduleCreate` fills in for fields the caller omits;
      every other optional field defaults to `None`. */
  function SchemaDefault(c: Column): Value
  {
    match c
    case BodyType => Str("HTML")
    case Priority => Str("Normal")
    case Encoding => Str("UTF-8")
    case SmtpPort => Int(587)
    case SmtpEnableSsl => Bool(true)
    case SmtpTimeoutSeconds => Int(30)
    case IsEnabled => Bool(true)
    case _ => Null
  }

  /** The column defaults of the table model: literal defaults, and the
      database's `now()` for both dates; `Null` for a column without one. */
  function ColumnDefault(c: Column, now: int): Value
  {
    match c
    case BodyType => Str("HTML")
    case Priority => Str("Normal")
    case Encoding => Str("UTF-8")
    case SmtpPort => Int(587)
    case SmtpEnableSsl => Bool(true)
    case SmtpTimeoutSeconds => Int(30)
    case ExecuteCount => Int(0)
    case SuccessCount => Int(0)
    case FailureCount => Int(0)
    case IsEnabled => Bool(true)
    case CreatedDate => Time(now)
    case ModifiedDate => Time(now)
    case ExecutionStatus => Str("Pending")
    case CurrentRetryCount => Int(0)
    case _ => Null
  }

  /** What an INSERT stores for a column whose ORM attribute holds `v`: a
      `None` attribute is left out of the statement, so the column default
      applies, which is `NULL` for a column without one. */
  function Inserted(c: Column, v: Value, now: int): (r: Value)
    ensures v.Null? ==> r == ColumnDefault(c, now)
    ensures !v.Null? ==> r == v
  {
    if v.Null? then ColumnDefault(c, now) else v
  }

  /** The request schema and the table agree on every default a create
      request can leave to either of them. */
  lemma SchemaAgreesWithTable(c: Column, now: int)
    requires CreateField(c)
    ensures SchemaDefault(c) == ColumnDefault(c, now)
  {
  }

  datatype Schedule = Schedule(id: nat, fields: map<Column, Value>)

  datatype Store = Store(rows: seq<Schedule>, nextId: nat)

  /** Every row has a value for every column. */
  predicate Complete(r: Schedule) {
    forall c: Column :: c in r.fields
  }

  /** Ids strictly increase along the rows and stay below the next id; every
      row is complete. */
  predicate Valid(s: Store) {
    (forall i, j :: 0 <= i < j < |s.rows| ==> s.rows[i].id < s.rows[j].id) &&
    (forall i :: 0 <= i < |s.rows| ==> s.rows[i].id < s.nextId && Complete(s.rows[i]))
  }

  /** Why the database refuses a statement. */
  datatype DbError =
    | NotNullViolation(column: Column) | ValueTooLong(column: Column) | IntegerOutOfRange(column: Column)
    | NegativeOffset | NegativeLimit

  // ---------------------------------------------------------------------------
  // Column types

  /** The columns in the order the table declares them. */
  function TableOrder(): seq<Column> {
    [Progcode, Sender, SenderName, Recipients, Cc, Bcc, ReplyTo, Subject, Body,
     BodyType, Priority, Encoding, AttachmentPaths, SmtpHost, SmtpPort, SmtpUsername,
     SmtpPassword, SmtpEnableSsl, SmtpTimeoutSeconds, LastExecuteTime, LastSuccessTime,
     LastErrorMessage, ExecuteCount, SuccessCount, FailureCount, IsEnabled, ScheduleCron,
     NextExecuteTime, CreatedBy, CreatedDate, ModifiedBy, ModifiedDate, Remark,
     ExecutionStatus, CurrentRetryCount]
  }

  /** The length `n` of a `String(n)` column, in characters; `None` for the
      `Text` columns and the columns that hold no string. */
  function MaxLength(c: Column): Option<nat>
  {
    match c
    case Progcode | Sender | SenderName | ReplyTo | SmtpHost | SmtpUsername => Some(200)
    case Subject | SmtpPassword => Some(500)
    case BodyType | Priority => Some(10)
    case Encoding => Some(50)
    case ScheduleCron | CreatedBy | ModifiedBy => Some(100)
    case ExecutionStatus => Some(20)
    case _ => None
  }

  /** The `Integer` columns, which PostgreSQL stores as signed 32-bit values. */
  predicate IntegerColumn(c: Column) {
    c in {SmtpPort, SmtpTimeoutSeconds, ExecuteCount, SuccessCount, FailureCount, CurrentRetryCount}
  }

  /** Whether the column's declared type holds `v`: a string no longer than a
      `String(n)` column allows, an integer within 32 bits for an `Integer`
      column. */
  predicate Fits(c: Column, v: Value) {
    match v
    case Str(str) => MaxLength(c).None? || |str| <= MaxLength(c).value
    case Int(i) => !IntegerColumn(c) || -0x8000_0000 <= i < 0x8000_0000
    case _ => true
  }

  /** The first column of `order` whose new value does not fit. */
  function FirstMisfit(order: seq<Column>, patch: map<Column, Value>): (c: Option<Column>)
    ensures c.Some? ==> c.value in patch && !Fits(c.value, patch[c.value])
    ensures c.Some? ==> exists i :: 0 <= i < |order| && order[i] == c.value &&
                          forall j :: 0 <= j < i ==> order[j] !in patch || Fits(order[j], patch[order[j]])
    ensures c.None? ==> forall k :: k in order && k in patch ==> Fits(k, patch[k])
  {
    if |order| == 0 then None
    else if order[0] in patch && !Fits(order[0], patch[order[0]]) then Some(order[0])
    else
      var rest := FirstMisfit(order[1..], patch);
      assert forall k :: k in order ==> k == order[0] || k in order[1..];
      if rest.Some? then
        var i :| 0 <= i < |order[1..]| && order[1..][i] == rest.value &&
                 forall j :: 0 <= j < i ==> order[1..][j] !in patch || Fits(order[1..][j], patch[order[1..][j]]);
        assert order[i + 1] == rest.value;
        assert forall j :: 1 <= j < i + 1 ==> order[j] == order[1..][j - 1];
        rest
      else rest
  }

  /** The error PostgreSQL raises while it converts the new values of an
      `UPDATE` to the column types, before any constraint is checked: the
      first column in table order whose value does not fit. */
  function FitError(patch: map<Column, Value>): (e: Option<DbError>)
    ensures e.None? <==> forall c :: c in patch ==> Fits(c, patch[c])
    ensures e.Some? ==> (e.value.ValueTooLong? || e.value.IntegerOutOfRange?) &&
                        e.value.column in patch && !Fits(e.value.column, patch[e.value.column])
    ensures e.Some? ==> (e.value.ValueTooLong? <==> patch[e.value.column].Str?)
  {
    match FirstMisfit(TableOrder(), patch)
    case None => None
    case Some(c) => Some(if patch[c].Str? then ValueTooLong(c) else IntegerOutOfRange(c))
  }

  // ---------------------------------------------------------------------------
  // Reading

  /** `get_schedule`: the row with that id, if any. */
  function Get(s: Store, id: int): (r: Option<Schedule>)
    ensures r.Some? ==> r.value in s.rows && r.value.id == id
    ensures r.None? ==> forall i :: 0 <= i < |s.rows| ==> s.rows[i].id != id
    decreases |s.rows|
  {
    if |s.rows| == 0 then None
    else if s.rows[0].id == id then Some(s.rows[0])
    else
      var rest := Get(Store(s.rows[1..], s.nextId), id);
      assert forall i :: 1 <= i < |s.rows| ==> s.rows[i] == s.rows[1..][i - 1];
      rest
  }

  /** In a valid store a row is found by its own id. */
  lemma GetFindsRow(s: Store, r: Schedule)
    requires Valid(s) && r in s.rows
    ensures Get(s, r.id) == Some(r)
  {
    var g := Get(s, r.id);
    var i :| 0 <= i < |s.rows| && s.rows[i] == r;
    var j :| 0 <= j < |s.rows| && s.rows[j] == g.value;
    assert i == j;
  }

  /** Two valid stores that hold the same rows with id `x` agree on `x`. */
  lemma GetAgrees(a: Store, b: Store, x: int)
    requires Valid(a) && Valid(b)
    requires forall r: Schedule :: r.id == x ==> (r in a.rows <==> r in b.rows)
    ensures Get(a, x) == Get(b, x)
  {
    var ga := Get(a, x);
    if ga.Some? {
      GetFindsRow(b, ga.value);
    } else if Get(b, x).Some? {
      GetFindsRow(a, Get(b, x).value);
    }
  }

  /** `OFFSET skip LIMIT limit` over the rows in the order the database scans
      them; the database rejects a negative offset or limit. */
  function Page(scan: seq<Schedule>, skip: int, limit: int): (r: Result<seq<Schedule>, DbError>)
    ensures skip < 0 ==> r == Failure(NegativeOffset)
    ensures skip >= 0 && limit < 0 ==> r == Failure(NegativeLimit)
    ensures skip >= 0 && limit >= 0 ==> r.Success?
    ensures r.Success? ==>
              |r.value| == (if skip >= |scan| then 0 else if |scan| - skip < limit then |scan| - skip else limit)
    ensures r.Success? ==> forall i :: 0 <= i < |r.value| ==> r.value[i] == scan[skip + i]
  {
    if skip < 0 then Failure(NegativeOffset)
    else if limit < 0 then Failure(NegativeLimit)
    else if skip >= |scan| then Success([])
    else if |scan| - skip < limit then Success(scan[skip..])
    else Success(scan[skip..skip + limit])
  }

  /** `get_schedules(skip, limit)`: one page of the table, in id order. The
      query has no `ORDER BY`; id order is the order that makes paging sound
      (see `PagesMayOverlap`). */
  function GetSchedules(s: Store, skip: int := 0, limit: int := 100): (r: Result<seq<Schedule>, DbError>)
    ensures skip < 0 ==> r == Failure(NegativeOffset)
    ensures skip >= 0 && limit < 0 ==> r == Failure(NegativeLimit)
    ensures skip >= 0 && limit >= 0 ==> r.Success?
    ensures r.Success? ==>
              |r.value| == (if skip >= |s.rows| then 0 else if |s.rows| - skip < limit then |s.rows| - skip else limit)
    ensures r.Success? ==> forall i :: 0 <= i < |r.value| ==> r.value[i] == s.rows[skip + i]
  {
    Page(s.rows, skip, limit)
  }

  /** Consecutive pages taken from one scan order cover it without gap or
      overlap; `GetSchedules` pages the id order. */
  lemma PagesConcatenate(scan: seq<Schedule>, skip: nat, a: nat, b: nat)
    ensures Page(scan, skip, a).value + Page(scan, skip + a, b).value == Page(scan, skip, a + b).value
  {
    var p := Page(scan, skip, a).value;
    var q := Page(scan, skip + a, b).value;
    var w := Page(scan, skip, a + b).value;
    assert |p| + |q| == |w|;
    forall i | 0 <= i < |w| ensures (p + q)[i] == w[i] {
      if i >= |p| { assert (p + q)[i] == q[i - |p|]; }
    }
  }

  /** Without an `ORDER BY` the two queries of consecutive pages may scan the
      same two rows in different orders; then one row is on both pages and the
      other on neither. */
  lemma PagesMayOverlap(x: Schedule, y: Schedule)
    requires x != y
    ensures Page([x, y], 0, 1).value + Page([y, x], 1, 1).value == [x, x]
  {
    assert Page([x, y], 0, 1).value == [x];
    assert Page([y, x], 1, 1).value == [x];
  }

  // ---------------------------------------------------------------------------
  // Writing

  /** The row `create_schedule` inserts. Every create field reaches the ORM,
      the omitted ones with the schema's default; the table's own columns
      are not set. An attribute that is `None` then takes the column
      default. */
  function NewRow(id: nat, data: map<Column, Value>, now: int): (r: Schedule)
    requires forall c :: c in data ==> CreateField(c)
    ensures r.id == id && Complete(r)
    ensures forall c :: c in data && !data[c].Null? ==> r.fields[c] == data[c]
    ensures forall c :: c in data && data[c].Null? ==> r.fields[c] == ColumnDefault(c, now)
    ensures forall c :: CreateField(c) && c !in data ==> r.fields[c] == SchemaDefault(c)
    ensures forall c :: TableOnly(c) ==> r.fields[c] == ColumnDefault(c, now)
  {
    Schedule(id, map c: Column :: Inserted(c, if c in data then data[c]
                                            else if CreateField(c) then SchemaDefault(c)
                                            else Null, now))
  }

  /** Sending an explicit `null` for a field inserts the same row as leaving
      the field out of the request. */
  lemma ExplicitNullIsOmitted(id: nat, data: map<Column, Value>, c: Column, now: int)
    requires forall k :: k in data ==> CreateField(k)
    requires c in data && data[c].Null?
    ensures NewRow(id, data, now) == NewRow(id, data - {c}, now)
  {
    SchemaAgreesWithTable(c, now);
    var a := NewRow(id, data, now);
    var b := NewRow(id, data - {c}, now);
    assert forall k: Column :: a.fields[k] == b.fields[k];
    assert a.fields == b.fields;
  }

  /** A create request carries every required field, as a string. */
  predicate CreateRequestOk(data: map<Column, Value>) {
    (forall c :: c in data ==> CreateField(c)) &&
    (forall c :: NotNull(c) ==> c in data && data[c].Str?)
  }

  datatype Created = Created(store: Store, row: Schedule)

  /** `create_schedule`: appends one row under the next id; existing rows are
      untouched. */
  function Create(s: Store, data: map<Column, Value>, now: int): (r: Created)
    requires Valid(s) && CreateRequestOk(data)
    ensures Valid(r.store)
    ensures r.store.rows == s.rows + [r.row]
    ensures r.row.id == s.nextId && r.store.nextId == s.nextId + 1
    ensures Get(s, r.row.id).None?
    ensures Complete(r.row) && forall c :: c in data && !data[c].Null? ==> r.row.fields[c] == data[c]
    ensures forall c :: c in data && data[c].Null? ==> r.row.fields[c] == ColumnDefault(c, now)
    ensures r.row.fields[ExecutionStatus] == Str("Pending") && r.row.fields[ExecuteCount] == Int(0)
  {
    var row := NewRow(s.nextId, data, now);
    AppendValid(s, row);
    Created(Store(s.rows + [row], s.nextId + 1), row)
  }

  /** Appending a complete row under the next id keeps the store valid. */
  lemma AppendValid(s: Store, row: Schedule)
    requires Valid(s) && row.id == s.nextId && Complete(row)
    ensures Valid(Store(s.rows + [row], s.nextId + 1))
  {
    var t := Store(s.rows + [row], s.nextId + 1);
    assert forall i :: 0 <= i < |s.rows| ==> t.rows[i] == s.rows[i];
  }

  /** After a create, the new row is found by its id and every other id reads
      as before. */
  lemma CreateThenGet(s: Store, data: map<Column, Value>, now: int, x: int)
    requires Valid(s) && CreateRequestOk(data)
    ensures var c := Create(s, data, now);
            Get(c.store, c.row.id) == Some(c.row) &&
            (x != c.row.id ==> Get(c.store, x) == Get(s, x))
  {
    var c := Create(s, data, now);
    GetFindsRow(c.store, c.row);
    if x != c.row.id {
      GetAgrees(c.store, s, x);
    }
  }

  datatype Changed = Changed(store: Store, result: Result<Option<Schedule>, DbError>)

  /** The position of the row with id `id`, if any. */
  function IndexOf(rows: seq<Schedule>, id: int): (k: Option<nat>)
    ensures k.Some? ==> k.value < |rows| && rows[k.value].id == id
    ensures k.None? ==> forall i :: 0 <= i < |rows| ==> rows[i].id != id
  {
    if |rows| == 0 then None
    else if rows[|rows| - 1].id == id then Some(|rows| - 1)
    else IndexOf(rows[..|rows| - 1], id)
  }

  /** The fields after a patch: the patched values, `modifieddate` set to
      `now`, everything else as it was. */
  function Patch(fields: map<Column, Value>, patch: map<Column, Value>, now: int): (f: map<Column, Value>)
    requires forall c :: c in patch ==> UpdateField(c)
    ensures forall c :: c in patch ==> c in f && f[c] == patch[c]
    ensures ModifiedDate in f && f[ModifiedDate] == Time(now)
    ensures forall c :: c !in patch && c != ModifiedDate ==> (c in f <==> c in fields)
    ensures forall c :: c !in patch && c != ModifiedDate && c in fields ==> f[c] == fields[c]
  {
    assert !UpdateField(ModifiedDate);
    assert ModifiedDate !in patch;
    fields + patch + map[ModifiedDate := Time(now)]
  }

  /** A column the patch would set to `NULL` although it is declared NOT NULL. */
  function NullViolation(patch: map<Column, Value>): (v: Option<Column>)
    ensures v.Some? ==> v.value in patch && NotNull(v.value) && patch[v.value] == Null
    ensures v.None? ==> forall c :: c in patch && NotNull(c) ==> patch[c] != Null
  {
    if Progcode in patch && patch[Progcode] == Null then Some(Progcode)
    else if Sender in patch && patch[Sender] == Null then Some(Sender)
    else if Recipients in patch && patch[Recipients] == Null then Some(Recipients)
    else if Subject in patch && patch[Subject] == Null then Some(Subject)
    else if Body in patch && patch[Body] == Null then Some(Body)
    else None
  }

  /** `update_schedule`: `patch` holds exactly the fields the caller set
      (`exclude_unset`), including ones set to `None`. A missing id gives
      `None`; a value its column cannot hold, and then a NOT NULL column set
      to `None`, makes the commit fail; otherwise the row gets the patched
      values and a new `modifieddate`. In every case
      the other rows are untouched. */
  function Update(s: Store, id: int, patch: map<Column, Value>, now: int): (r: Changed)
    requires Valid(s) && forall c :: c in patch ==> UpdateField(c)
    ensures Valid(r.store)
    ensures Get(s, id).None? ==> r == Changed(s, Success(None))
    ensures Get(s, id).Some? && FitError(patch).Some? ==> r == Changed(s, Failure(FitError(patch).value))
    ensures Get(s, id).Some? && FitError(patch).None? && NullViolation(patch).Some? ==>
              r == Changed(s, Failure(NotNullViolation(NullViolation(patch).value)))
    ensures Get(s, id).Some? && FitError(patch).None? && NullViolation(patch).None? ==>
              r.result == Success(Some(Schedule(id, Patch(Get(s, id).value.fields, patch, now)))) &&
              Get(r.store, id) == r.result.value
    ensures r.result.Success? && r.result.value.Some? ==>
              Get(s, id).Some? && FitError(patch).None? && NullViolation(patch).None? &&
              r.result.value.value == Schedule(id, Patch(Get(s, id).value.fields, patch, now)) &&
              Get(r.store, id) == r.result.value
    ensures |r.store.rows| == |s.rows| && r.store.nextId == s.nextId
    ensures forall x :: x != id ==> Get(r.store, x) == Get(s, x)
  {
    match IndexOf(s.rows, id)
    case None => Changed(s, Success(None))
    case Some(k) =>
      GetFindsRow(s, s.rows[k]);
      assert Get(s, id) == Some(s.rows[k]);
      if FitError(patch).Some? then Changed(s, Failure(FitError(patch).value))
      else match NullViolation(patch)
      case Some(c) => Changed(s, Failure(NotNullViolation(c)))
      case None =>
        var row := Schedule(id, Patch(s.rows[k].fields, patch, now));
        var t := Store(s.rows[k := row], s.nextId);
        ReplaceRow(s, k, row);
        Changed(t, Success(Some(row)))
  }

  /** Replacing the row at `k` by a complete row with the same id keeps the
      store valid, finds the new row under that id and changes no other id. */
  lemma ReplaceRow(s: Store, k: nat, row: Schedule)
    requires Valid(s) && k < |s.rows| && row.id == s.rows[k].id && Complete(row)
    ensures Valid(Store(s.rows[k := row], s.nextId))
    ensures Get(Store(s.rows[k := row], s.nextId), row.id) == Some(row)
    ensures forall x :: x != row.id ==> Get(Store(s.rows[k := row], s.nextId), x) == Get(s, x)
  {
    var t := Store(s.rows[k := row], s.nextId);
    assert t.rows[k] == row;
    GetFindsRow(t, row);
    forall x | x != row.id ensures Get(t, x) == Get(s, x) {
      forall r: Schedule | r.id == x ensures r in t.rows <==> r in s.rows {
        if r in s.rows {
          var i :| 0 <= i < |s.rows| && s.rows[i] == r;
          assert t.rows[i] == r;
        }
        if r in t.rows {
          var i :| 0 <= i < |t.rows| && t.rows[i] == r;
          assert s.rows[i] == r;
        }
      }
      GetAgrees(t, s, x);
    }
  }

  /** `update_schedule_status`: only `isenabled` and `modifieddate` change. */
  function UpdateScheduleStatus(s: Store, id: int, enabled: bool, now: int): (r: Changed)
    requires Valid(s)
    ensures Valid(r.store) && r.result.Success?
    ensures Get(s, id).None? ==> r == Changed(s, Success(None))
    ensures Get(s, id).Some? ==>
              r.result.value.Some? && Get(r.store, id) == r.result.value &&
              r.result.value.value.fields[IsEnabled] == Bool(enabled) &&
              r.result.value.value.fields[ModifiedDate] == Time(now) &&
              forall c :: c != IsEnabled && c != ModifiedDate ==>
                r.result.value.value.fields[c] == Get(s, id).value.fields[c]
    ensures forall x :: x != id ==> Get(r.store, x) == Get(s, x)
  {
    match IndexOf(s.rows, id)
    case None => Changed(s, Success(None))
    case Some(k) =>
      var prev := s.rows[k];
      var row := Schedule(id, prev.fields[IsEnabled := Bool(enabled)][ModifiedDate := Time(now)]);
      GetFindsRow(s, prev);
      ReplaceRow(s, k, row);
      Changed(Store(s.rows[k := row], s.nextId), Success(Some(row)))
  }

  /** `delete_schedule`: removes exactly the row with that id and returns it;
      a missing id gives `None` and changes nothing. */
  function Delete(s: Store, id: int): (r: Changed)
    requires Valid(s)
    ensures Valid(r.store) && r.result.Success?
    ensures r.result.value == Get(s, id)
    ensures Get(s, id).None? ==> r.store == s
    ensures Get(s, id).Some? ==> |r.store.rows| == |s.rows| - 1 && Get(r.store, id).None?
    ensures forall x :: x != id ==> Get(r.store, x) == Get(s, x)
    ensures r.store.nextId == s.nextId
  {
    match IndexOf(s.rows, id)
    case None => Changed(s, Success(None))
    case Some(k) =>
      var row := s.rows[k];
      GetFindsRow(s, row);
      var t := Store(s.rows[..k] + s.rows[k + 1..], s.nextId);
      RemoveRow(s, k);
      Changed(t, Success(Some(row)))
  }

  lemma RemoveRow(s: Store, k: nat)
    requires Valid(s) && k < |s.rows|
    ensures var t := Store(s.rows[..k] + s.rows[k + 1..], s.nextId);
            Valid(t) && Get(t, s.rows[k].id).None? &&
            forall x :: x != s.rows[k].id ==> Get(t, x) == Get(s, x)
  {
    var t := Store(s.rows[..k] + s.rows[k + 1..], s.nextId);
    var id := s.rows[k].id;
    assert forall i :: 0 <= i < |t.rows| ==> t.rows[i] == s.rows[if i < k then i else i + 1];
    assert Valid(t);
    assert forall i :: 0 <= i < |t.rows| ==> t.rows[i].id != id;
    forall x | x != id ensures Get(t, x) == Get(s, x) {
      forall r: Schedule | r.id == x ensures r in t.rows <==> r in s.rows {
        if r in s.rows {
          var i :| 0 <= i < |s.rows| && s.rows[i] == r;
          assert i != k;
          assert t.rows[if i < k then i else i - 1] == r;
        }
      }
      GetAgrees(t, s, x);
    }
  }

  // ---------------------------------------------------------------------------
  // How the operations relate

  /** A patch of one column whose value does not fit fails with that column. */
  lemma SingleMisfit(c: Column, v: Value)
    requires !Fits(c, v)
    ensures FitError(map[c := v]) == Some(if v.Str? then ValueTooLong(c) else IntegerOutOfRange(c))
  {
    var p := map[c := v];
    assert p[c] == v;
  }

  /** An 11-character body type, or a port beyond 32 bits, passes the update
      schema but makes the commit fail, and the table stays as it was. */
  lemma OverflowingPatchRefused(s: Store, id: int, now: int)
    requires Valid(s) && Get(s, id).Some?
    ensures Update(s, id, map[BodyType := Str("TEXT_PLAIN1")], now) == Changed(s, Failure(ValueTooLong(BodyType)))
    ensures Update(s, id, map[SmtpPort := Int(0x8000_0000)], now) == Changed(s, Failure(IntegerOutOfRange(SmtpPort)))
  {
    SingleMisfit(BodyType, Str("TEXT_PLAIN1"));
    SingleMisfit(SmtpPort, Int(0x8000_0000));
  }

  /** Any `isenabled` value fits its column. */
  lemma StatusFits(enabled: bool)
    ensures FitError(map[IsEnabled := Bool(enabled)]).None?
  {
    var p := map[IsEnabled := Bool(enabled)];
    assert forall c :: c in p ==> Fits(c, p[c]);
  }

  /** A status update is the partial update that sets only `isenabled`. */
  lemma StatusIsPartialUpdate(s: Store, id: int, enabled: bool, now: int)
    requires Valid(s)
    ensures UpdateScheduleStatus(s, id, enabled, now) == Update(s, id, map[IsEnabled := Bool(enabled)], now)
  {
    var p := map[IsEnabled := Bool(enabled)];
    assert UpdateField(IsEnabled);
    assert forall c :: c in p ==> UpdateField(c);
    StatusFits(enabled);
    assert NullViolation(p).None?;
    match IndexOf(s.rows, id)
    case None =>
    case Some(k) =>
      StatusPatch(s.rows[k].fields, enabled, now);
  }

  /** Setting `isenabled` and `modifieddate` by hand is the patch of
      `isenabled` alone. */
  lemma StatusPatch(f: map<Column, Value>, enabled: bool, now: int)
    ensures f[IsEnabled := Bool(enabled)][ModifiedDate := Time(now)] == Patch(f, map[IsEnabled := Bool(enabled)], now)
  {
  }

  /** Applying the same patch twice at the same time changes nothing more. */
  lemma PatchIdempotent(fields: map<Column, Value>, patch: map<Column, Value>, now: int)
    requires forall c :: c in patch ==> UpdateField(c)
    ensures Patch(Patch(fields, patch, now), patch, now) == Patch(fields, patch, now)
  {
  }

  /** Deleting the row just created gives back the rows as they were. */
  lemma CreateThenDelete(s: Store, data: map<Column, Value>, now: int)
    requires Valid(s) && CreateRequestOk(data)
    ensures var c := Create(s, data, now);
            Delete(c.store, c.row.id) == Changed(Store(s.rows, s.nextId + 1), Success(Some(c.row)))
  {
    var c := Create(s, data, now);
    GetFindsRow(c.store, c.row);
    var k := IndexOf(c.store.rows, c.row.id);
    assert k == Some(|s.rows|);
    assert c.store.rows[..|s.rows|] == s.rows;
  }

  /** The default listing of a table of at most 100 rows is the whole table. */
  lemma DefaultListingIsAll(s: Store)
    requires |s.rows| <= 100
    ensures GetSchedules(s) == Success(s.rows)
  {
    assert s.rows[0..] == s.rows[0..|s.rows|] == s.rows;
  }

  /** The `max_length` the update request schema puts on a field, if any. */
  function UpdateSchemaMaxLength(c: Column): Option<nat>
  {
    match c
    case Progcode | Sender | SenderName | ReplyTo | SmtpHost | SmtpUsername => Some(200)
    case Subject | SmtpPassword => Some(500)
    case Encoding => Some(50)
    case ScheduleCron | ModifiedBy => Some(100)
    case _ => None
  }

  /** The update schema bounds every string field exactly as its column
      does, except `bodytype` and `priority`, which it leaves unbounded
      although the table makes them `String(10)`; only those two can reach
      the commit with a string their column cannot hold. */
  lemma SchemaBoundsMatchTable(c: Column)
    requires UpdateField(c)
    ensures c != BodyType && c != Priority ==> UpdateSchemaMaxLength(c) == MaxLength(c)
    ensures c == BodyType || c == Priority ==> UpdateSchemaMaxLength(c).None? && MaxLength(c) == Some(10)
  {
  }
}

=== FILE: pystr.dfy ===
/** The parts of Python's `str` semantics the code base relies on, written out:
    `isspace`, `strip`, `split` with an explicit separator, `join`, `upper`, and
    the truthiness of optional strings and integers used by `x or default`. */
module PyStr {
  import opened Wrappers

  // ---------------------------------------------------------------------------
  // Whitespace and strip()

  /** `c.isspace()`: the 29 code points Python treats as whitespace. */
  predicate IsSpace(c: char) {
    var n := c as int;
    || 0x09 <= n <= 0x0D
    || 0x1C <= n <= 0x20
    || n == 0x85 || n == 0xA0 || n == 0x1680
    || 0x2000 <= n <= 0x200A
    || n == 0x2028 || n == 0x2029 || n == 0x202F || n == 0x205F || n == 0x3000
  }

  /** Neither end of `s` is whitespace (the shape of every `strip()` result). */
  predicate Stripped(s: string) {
    |s| == 0 || (!IsSpace(s[0]) && !IsSpace(s[|s| - 1]))
  }

  /** Number of whitespace characters `s.lstrip()` removes. */
  function LeadingSpace(s: string): (n: nat)
    ensures n <= |s|
    decreases |s|
  {
    if |s| > 0 && IsSpace(s[0]) then 1 + LeadingSpace(s[1..]) else 0
  }

  /** Number of whitespace characters `s.rstrip()` removes. */
  function TrailingSpace(s: string): (n: nat)
    ensures n <= |s|
    decreases |s|
  {
    if |s| > 0 && IsSpace(s[|s| - 1]) then 1 + TrailingSpace(s[..|s| - 1]) else 0
  }

  /** `lstrip` removes a maximal run of whitespace: everything before the cut
      is whitespace and the character at the cut is not. */
  lemma {:induction false} LeadingSpaceMaximal(s: string)
    ensures forall i :: 0 <= i < LeadingSpace(s) ==> IsSpace(s[i])
    ensures LeadingSpace(s) < |s| ==> !IsSpace(s[LeadingSpace(s)])
    decreases |s|
  {
    if |s| > 0 && IsSpace(s[0]) {
      LeadingSpaceMaximal(s[1..]);
      forall i | 1 <= i < LeadingSpace(s) ensures IsSpace(s[i]) {
        assert s[i] == s[1..][i - 1];
      }
    }
  }

  /** `rstrip` removes a maximal run of whitespace at the end. */
  lemma {:induction false} TrailingSpaceMaximal(s: string)
    ensures forall i :: |s| - TrailingSpace(s) <= i < |s| ==> IsSpace(s[i])
    ensures TrailingSpace(s) < |s| ==> !IsSpace(s[|s| - 1 - TrailingSpace(s)])
    decreases |s|
  {
    if |s| > 0 && IsSpace(s[|s| - 1]) {
      var t := s[..|s| - 1];
      TrailingSpaceMaximal(t);
      forall i | |s| - TrailingSpace(s) <= i < |s| - 1 ensures IsSpace(s[i]) {
        assert s[i] == t[i];
      }
      if TrailingSpace(s) < |s| {
        assert s[|s| - 1 - TrailingSpace(s)] == t[|t| - 1 - TrailingSpace(t)];
      }
    }
  }

  /** Where `s.strip()` starts inside `s`. */
  function StripStart(s: string): nat
  {
    LeadingSpace(s)
  }

  /** `s.strip()`: the slice of `s` between its leading and its trailing
      whitespace; neither end of the result is whitespace, and everything cut
      off on either side is. */
  function Strip(s: string): (r: string)
    ensures Stripped(r)
    ensures StripStart(s) + |r| <= |s| && r == s[StripStart(s)..StripStart(s) + |r|]
    ensures forall i :: 0 <= i < StripStart(s) ==> IsSpace(s[i])
    ensures forall i :: StripStart(s) + |r| <= i < |s| ==> IsSpace(s[i])
  {
    var a := LeadingSpace(s);
    LeadingSpaceMaximal(s);
    if a == |s| then ""
    else
      TrailingSpaceMaximal(s);
      var b := |s| - TrailingSpace(s);
      assert a < b;
      s[a..b]
  }

  /** `s.strip()` is empty exactly when `s` is all whitespace. */
  lemma StripBlank(s: string)
    ensures Strip(s) == "" <==> forall i :: 0 <= i < |s| ==> IsSpace(s[i])
  {
    LeadingSpaceMaximal(s);
    TrailingSpaceMaximal(s);
    if LeadingSpace(s) < |s| {
      assert !IsSpace(s[LeadingSpace(s)]);
      assert |s| - TrailingSpace(s) > LeadingSpace(s);
    }
  }

  /** Stripping a string that has no whitespace at its ends changes nothing. */
  lemma StripOfStripped(s: string)
    requires Stripped(s)
    ensures Strip(s) == s
  {
    if |s| > 0 {
      assert LeadingSpace(s) == 0;
      assert TrailingSpace(s) == 0;
    }
  }

  // ---------------------------------------------------------------------------
  // Occurrences of a separator, split() and join()

  /** `sep` occurs in `s` starting at index `k`. */
  predicate OccursAt(s: string, sep: string, k: int) {
    0 <= k && k + |sep| <= |s| && s[k..k + |sep|] == sep
  }

  /** `sep in s`. */
  ghost predicate Contains(s: string, sep: string) {
    exists k :: OccursAt(s, sep, k)
  }

  /** `s.find(sep)`, with `None` for -1: the first occurrence of `sep`. */
  function Find(s: string, sep: string): (r: Option<nat>)
    requires |sep| > 0
    ensures r.Some? ==> OccursAt(s, sep, r.value)
    ensures r.Some? ==> forall k :: 0 <= k < r.value ==> !OccursAt(s, sep, k)
    ensures r.None? ==> forall k :: !OccursAt(s, sep, k)
    decreases |s|
  {
    if |s| < |sep| then None
    else if s[..|sep|] == sep then Some(0)
    else
      var t := Find(s[1..], sep);
      ShiftOccurrence(s, sep);
      match t
      case None => None
      case Some(k) => Some(k + 1)
  }

  lemma ShiftOccurrence(s: string, sep: string)
    requires |s| > 0
    ensures forall k :: 1 <= k ==> (OccursAt(s, sep, k) <==> OccursAt(s[1..], sep, k - 1))
  {
    forall k | 1 <= k
      ensures OccursAt(s, sep, k) <==> OccursAt(s[1..], sep, k - 1)
    {
      if k + |sep| <= |s| {
        SliceOfSlice(s, 1, |s|, k - 1, k - 1 + |sep|);
      }
    }
  }

  lemma SliceOfSlice(s: string, a: int, b: int, i: int, j: int)
    requires 0 <= a <= b <= |s| && 0 <= i <= j <= b - a
    ensures s[a..b][i..j] == s[a + i..a + j]
  {
    var t := s[a..b][i..j];
    var u := s[a + i..a + j];
    forall x | 0 <= x < |t| ensures t[x] == u[x] {}
  }

  /** An occurrence inside a slice of `s` is an occurrence in `s`. */
  lemma OccursInSlice(s: string, a: int, b: int, sep: string, k: int)
    requires 0 <= a <= b <= |s|
    requires OccursAt(s[a..b], sep, k)
    ensures OccursAt(s, sep, a + k)
  {
    SliceOfSlice(s, a, b, k, k + |sep|);
  }

  /** `s.split(sep)` for a non-empty `sep` (Python raises ValueError on an
      empty one): at least one piece, none containing `sep`. */
  function Split(s: string, sep: string): (r: seq<string>)
    requires |sep| > 0
    ensures |r| >= 1
    ensures forall i :: 0 <= i < |r| ==> !Contains(r[i], sep)
    decreases |s|
  {
    match Find(s, sep)
    case None => [s]
    case Some(k) =>
      var head := s[..k];
      assert !Contains(head, sep) by {
        forall j | OccursAt(head, sep, j) ensures false {
          OccursInSlice(s, 0, k, sep, j);
        }
      }
      [head] + Split(s[k + |sep|..], sep)
  }

  /** `sep.join(ps)`. */
  function Join(ps: seq<string>, sep: string): string
  {
    if |ps| == 0 then ""
    else if |ps| == 1 then ps[0]
    else ps[0] + sep + Join(ps[1..], sep)
  }

  /** Splitting loses nothing: joining the pieces back gives the input. */
  lemma {:induction false} JoinSplit(s: string, sep: string)
    requires |sep| > 0
    ensures Join(Split(s, sep), sep) == s
    decreases |s|
  {
    match Find(s, sep)
    case None =>
    case Some(k) =>
      var rest := s[k + |sep|..];
      var tail := Split(rest, sep);
      assert Split(s, sep) == [s[..k]] + tail;
      assert ([s[..k]] + tail)[1..] == tail;
      assert Join(Split(s, sep), sep) == s[..k] + sep + Join(tail, sep);
      JoinSplit(rest, sep);
      assert s[k..k + |sep|] == sep;
      assert s == s[..k] + s[k..k + |sep|] + rest;
  }

  /** Every character of every piece of `split` comes from the input. */
  lemma {:induction false} SplitCharsFromInput(s: string, sep: string)
    requires |sep| > 0
    ensures forall i, c :: 0 <= i < |Split(s, sep)| && c in Split(s, sep)[i] ==> c in s
    decreases |s|
  {
    match Find(s, sep)
    case None =>
    case Some(k) =>
      var rest := s[k + |sep|..];
      SplitCharsFromInput(rest, sep);
      var r := Split(s, sep);
      assert r == [s[..k]] + Split(rest, sep);
      forall i, c | 0 <= i < |r| && c in r[i] ensures c in s {
        if i > 0 {
          assert r[i] == Split(rest, sep)[i - 1];
          assert c in rest;
          var j :| 0 <= j < |rest| && rest[j] == c;
          assert s[k + |sep| + j] == c;
        } else {
          var j :| 0 <= j < |r[0]| && r[0][j] == c;
          assert s[j] == c;
        }
      }
  }

  /** Every character of `s.strip()` comes from `s`. */
  lemma StripChars(s: string)
    ensures forall c :: c in Strip(s) ==> c in s
  {
    var r := Strip(s);
    var a := StripStart(s);
    forall c | c in r ensures c in s {
      var j :| 0 <= j < |r| && r[j] == c;
      assert s[a + j] == c;
    }
  }

  /** For a one-character separator, a occurrence is just that character. */
  lemma OccursAtSingle(s: string, c: char, k: int)
    ensures OccursAt(s, [c], k) <==> 0 <= k < |s| && s[k] == c
  {
    if 0 <= k < |s| { assert s[k..k + 1] == [s[k]]; }
  }

  lemma NoCharNoOccurrence(p: string, c: char)
    requires c !in p
    ensures Find(p, [c]) == None
  {
    forall k ensures !OccursAt(p, [c], k) { OccursAtSingle(p, c, k); }
  }

  lemma FindAfterPiece(p: string, c: char, rest: string)
    requires c !in p
    ensures Find(p + [c] + rest, [c]) == Some(|p|)
  {
    var s := p + [c] + rest;
    OccursAtSingle(s, c, |p|);
    forall k | 0 <= k < |p| ensures !OccursAt(s, [c], k) {
      OccursAtSingle(s, c, k);
      assert s[k] == p[k];
    }

  }

  /** With a one-character separator, split undoes join whenever no piece
      contains the separator. */
  lemma {:induction false} SplitJoin(ps: seq<string>, c: char)
    requires |ps| >= 1
    requires forall i :: 0 <= i < |ps| ==> c !in ps[i]
    ensures Split(Join(ps, [c]), [c]) == ps
    decreases |ps|
  {
    if |ps| == 1 {
      NoCharNoOccurrence(ps[0], c);
    } else {
      var rest := Join(ps[1..], [c]);
      FindAfterPiece(ps[0], c, rest);
      var s := ps[0] + [c] + rest;
      assert s[..|ps[0]|] == ps[0];
      assert s[|ps[0]| + 1..] == rest;
      SplitJoin(ps[1..], c);
      assert ps == [ps[0]] + ps[1..];
    }
  }

  /** Number of occurrences of character `c` in `s`. */
  function CountChar(s: string, c: char): nat
  {
    if |s| == 0 then 0 else (if s[0] == c then 1 else 0) + CountChar(s[1..], c)
  }

  lemma {:induction false} CountCharAppend(a: string, b: string, c: char)
    ensures CountChar(a + b, c) == CountChar(a, c) + CountChar(b, c)
    decreases |a|
  {
    if |a| == 0 {
      assert a + b == b;
    } else {
      assert (a + b)[1..] == a[1..] + b;
      CountCharAppend(a[1..], b, c);
    }
  }

  lemma {:induction false} CountCharAbsent(s: string, c: char)
    requires c !in s
    ensures CountChar(s, c) == 0
    decreases |s|
  {
    if |s| > 0 { CountCharAbsent(s[1..], c); }
  }

  /** `s.split(c)` has exactly one more piece than `s` has `c` characters, so
      empty pieces are kept. */
  lemma {:induction false} SplitCount(s: string, c: char)
    ensures |Split(s, [c])| == CountChar(s, c) + 1
    decreases |s|
  {
    match Find(s, [c])
    case None =>
      assert c !in s by {
        forall k | 0 <= k < |s| ensures s[k] != c { OccursAtSingle(s, c, k); }
      }
      CountCharAbsent(s, c);
    case Some(k) =>
      OccursAtSingle(s, c, k);
      assert c !in s[..k] by {
        forall j | 0 <= j < k ensures s[j] != c { OccursAtSingle(s, c, j); }
      }
      SplitCount(s[k + 1..], c);
      assert s == s[..k] + [c] + s[k + 1..];
      CountCharAppend(s[..k] + [c], s[k + 1..], c);
      CountCharAppend(s[..k], [c], c);
      CountCharAbsent(s[..k], c);
  }

  // ---------------------------------------------------------------------------
  // upper()

  /** `c.upper()`. ASCII letters, and the only non-ASCII code points whose
      upper-case form is pure ASCII (sharp s, dotless i, long s and the Latin
      ligatures U+FB00..U+FB06), are mapped; every other code point is kept,
      which decides comparisons against ASCII constants exactly as Python does. */
  function UpperChar(c: char): string
  {
    if 'a' <= c <= 'z' then [(c as int - 32) as char]
    else if c == '\U{00DF}' then "SS"
    else if c == '\U{0131}' then "I"
    else if c == '\U{017F}' then "S"
    else if c == '\U{FB00}' then "FF"
    else if c == '\U{FB01}' then "FI"
    else if c == '\U{FB02}' then "FL"
    else if c == '\U{FB03}' then "FFI"
    else if c == '\U{FB04}' then "FFL"
    else if c == '\U{FB05}' || c == '\U{FB06}' then "ST"
    else [c]
  }

  /** `s.upper()`. */
  function Upper(s: string): string
  {
    if |s| == 0 then "" else UpperChar(s[0]) + Upper(s[1..])
  }

  lemma {:induction false} UpperAppend(a: string, b: string)
    ensures Upper(a + b) == Upper(a) + Upper(b)
    decreases |a|
  {
    if |a| > 0 {
      assert (a + b)[1..] == a[1..] + b;
      UpperAppend(a[1..], b);
    } else {
      assert a + b == b;
    }
  }

  lemma UpperCharFixed(c: char)
    ensures Upper(UpperChar(c)) == UpperChar(c)
  {
    var u := UpperChar(c);
    if |u| == 1 {
      assert Upper(u) == UpperChar(u[0]) + Upper(u[1..]);
    } else if |u| == 2 {
      assert Upper(u) == UpperChar(u[0]) + UpperChar(u[1]) + Upper(u[2..]) by {
        assert u[1..][1..] == u[2..];
      }
    } else {
      assert |u| == 3;
      var u1 := u[1..];
      var u2 := u1[1..];
      assert Upper(u2) == UpperChar(u[2]) + Upper(u2[1..]);
      assert u2[1..] == [];
      assert Upper(u1) == UpperChar(u[1]) + Upper(u2);
      assert Upper(u) == UpperChar(u[0]) + Upper(u1);
    }
  }

  /** Upper-casing twice is upper-casing once. */
  lemma {:induction false} UpperIdempotent(s: string)
    ensures Upper(Upper(s)) == Upper(s)
    decreases |s|
  {
    if |s| > 0 {
      UpperAppend(UpperChar(s[0]), Upper(s[1..]));
      UpperCharFixed(s[0]);
      UpperIdempotent(s[1..]);
    }
  }

  // ---------------------------------------------------------------------------
  // Truthiness of optional values (`x or default`, `if x:`)

  /** `bool(x)` for `x: Optional[str]`. */
  predicate StrTruthy(x: Option<string>) {
    x.Some? && x.value != ""
  }

  /** `bool(x)` for `x: Optional[int]`. */
  predicate IntTruthy(x: Option<int>) {
    x.Some? && x.value != 0
  }

  /** `bool(x)` for `x: Optional[bool]`. */
  predicate BoolTruthy(x: Option<bool>) {
    x.Some? && x.value
  }
}

=== FILE: validators.dfy ===
// The two validators of the system that are not wrappers around a library:
// the TCP port range and the HTTP method whitelist.

module Validators {
  import opened PyStr

  // ---------------------------------------------------------------------------
  // validate_port

  /** A port number is valid when it is a non-zero 16-bit unsigned value. */
  predicate ValidatePort(port: int)
  {
    1 <= port <= 65535
  }

  /** The boundaries the project's own tests check. */
  lemma ValidatePortTested()
    ensures ValidatePort(80) && ValidatePort(8000) && ValidatePort(65535)
    ensures !ValidatePort(0) && !ValidatePort(65536) && !ValidatePort(-1)
  {
  }

  // ---------------------------------------------------------------------------
  // validate_http_method

  const ValidHttpMethods: seq<string> := ["GET", "POST", "PUT", "DELETE", "PATCH", "HEAD", "OPTIONS"]

  /** `verb.upper() in valid_methods`. */
  function ValidateHttpMethod(verb: string): (ok: bool)
    ensures ok ==> |Upper(verb)| >= 3
  {
    Upper(verb) in ValidHttpMethods
  }

  /** Validation looks only at the upper-cased verb, so upper-casing first
      changes nothing. */
  lemma ValidateHttpMethodCaseInsensitive(verb: string)
    ensures ValidateHttpMethod(Upper(verb)) == ValidateHttpMethod(verb)
  {
    UpperIdempotent(verb);
  }

  /** Every whitelisted name validates as written. */
  lemma WhitelistAccepted()
    ensures forall i :: 0 <= i < |ValidHttpMethods| ==> ValidateHttpMethod(ValidHttpMethods[i])
  {
    forall i | 0 <= i < |ValidHttpMethods|
      ensures ValidateHttpMethod(ValidHttpMethods[i])
    {
      var v := ValidHttpMethods[i];
      UpperOfAsciiUpper(v);
      assert Upper(v) == v;
    }
  }

  // ---------------------------------------------------------------------------
  // An independent reference for ASCII input: equality up to ASCII case

  predicate IsAscii(s: string) {
    forall k :: 0 <= k < |s| ==> s[k] < '\U{0080}'
  }

  function AsciiUpper(c: char): char {
    if 'a' <= c <= 'z' then (c as int - 32) as char else c
  }

  /** `a` matches the upper-case word `b` when each letter agrees up to case. */
  predicate MatchesIgnoringCase(a: string, b: string) {
    |a| == |b| && forall k :: 0 <= k < |a| ==> AsciiUpper(a[k]) == b[k]
  }

  /** On ASCII text `upper()` is the letter-by-letter ASCII upper-casing. */
  lemma {:induction false} UpperOfAscii(s: string)
    requires IsAscii(s)
    ensures |Upper(s)| == |s|
    ensures forall k :: 0 <= k < |s| ==> Upper(s)[k] == AsciiUpper(s[k])
    decreases |s|
  {
    if |s| > 0 {
      UpperOfAscii(s[1..]);
      assert Upper(s) == [AsciiUpper(s[0])] + Upper(s[1..]);
    }
  }

  lemma UpperOfAsciiUpper(s: string)
    requires IsAscii(s)
    requires forall k :: 0 <= k < |s| ==> !('a' <= s[k] <= 'z')
    ensures Upper(s) == s
  {
    UpperOfAscii(s);
  }

  /** For ASCII input the whitelist check is exactly a case-insensitive
      comparison against the seven method names. */
  lemma ValidateHttpMethodAscii(verb: string)
    requires IsAscii(verb)
    ensures ValidateHttpMethod(verb) <==>
            exists i :: 0 <= i < |ValidHttpMethods| && MatchesIgnoringCase(verb, ValidHttpMethods[i])
  {
    UpperOfAscii(verb);
    var u := Upper(verb);
    forall i | 0 <= i < |ValidHttpMethods|
      ensures u == ValidHttpMethods[i] <==> MatchesIgnoringCase(verb, ValidHttpMethods[i])
    {
      var v := ValidHttpMethods[i];
      if MatchesIgnoringCase(verb, v) {
        assert forall k :: 0 <= k < |u| ==> u[k] == v[k];
      }
    }
  }

  /** An ASCII name without lower-case letters validates iff it is listed. */
  lemma ValidateUpperAscii(verb: string)
    requires IsAscii(verb)
    requires forall k :: 0 <= k < |verb| ==> !('a' <= verb[k] <= 'z')
    ensures ValidateHttpMethod(verb) <==> verb in ValidHttpMethods
  {
    UpperOfAsciiUpper(verb);
  }

  lemma PutAccepted()
    ensures ValidateHttpMethod("put")
  {
    UpperOfAscii("put");
    assert Upper("put") == "PUT";
  }

  lemma InvalidRejected()
    ensures !ValidateHttpMethod("INVALID")
  {
    ValidateUpperAscii("INVALID");
  }

  /** The cases the project's own tests check. */
  lemma ValidateHttpMethodTested()
    ensures ValidateHttpMethod("GET") && ValidateHttpMethod("POST") && ValidateHttpMethod("put")
    ensures !ValidateHttpMethod("INVALID")
  {
    WhitelistAccepted();
    assert ValidHttpMethods[0] == "GET" && ValidHttpMethods[1] == "POST";
    PutAccepted();
    InvalidRejected();
  }

  /** Python's `upper()` maps the dotless i to `I`, so a method name spelled
      with one is accepted. */
  lemma DotlessIAccepted()
    ensures ValidateHttpMethod("opt\U{0131}ons")
  {
    var a, b, c := "opt", "\U{0131}", "ons";
    assert a + b + c == "opt\U{0131}ons";
    UpperAppend(a + b, c);
    UpperAppend(a, b);
    UpperOfAscii(a);
    UpperOfAscii(c);
    assert Upper(b) == "I" + Upper(b[1..]);
    assert Upper(a) + Upper(b) + Upper(c) == "OPTIONS";
  }
}

=== FILE: wrappers.dfy ===
/** Failure-carrying values shared by every module of the model: `Option` for
    Python's `None`-or-value, `Result` for a value-or-raised-exception. */
module Wrappers {

  datatype Option<+T> = None | Some(value: T) {
    function GetOr(default: T): T {
      match this
      case Some(v) => v
      case None => default
    }
  }

  datatype Result<+R, +E> = Success(value: R) | Failure(error: E)
}
